=== FILE: README.md ===
# DLKit symbol tables, image catalogue and interposing, in Dafny

DLKit wraps the dynamic loader of Apple platforms. An image is a loaded
Mach-O binary, or a Mach-O file read from disk. DLKit offers these views of an
image:

- its symbol table, read by a C routine (`init_symbol_iterator`) that walks
  the image's load commands;
- its entries, yielded by a filtering cursor (`skipFiltered` and
  `SymbolIterator.next`);
- pseudo images that stand for all loaded images, the application's own
  images, or the main executable;
- re-masked views of any image (`unfiltered`, `globals`).

DLKit can also rebind a symbol ("interpose") through fishhook. It uses a
poison-and-check protocol: before each image, every rebinding's `replaced`
slot is armed with its own address. After fishhook has run, a slot that no
longer holds that address means its name was replaced in that image. The
project models all of this as pure functions over immutable records:

| file | module | what it holds |
|---|---|---|
| `common.dfy` | `Common` | `Option`/`Result`, fixed-width integer types, the 64-bit wrap, sequence predicates, `Filter`/`First`, the last path component |
| `macho.dfy` | `MachO` | Mach-O constants, load commands as tagged records, `nlist_64` |
| `decoder.dfy` | `Decoder` | `init_symbol_iterator`: the command walk, the first pass (segments, `LC_SYMTAB`), the second pass (export trie) |
| `symbols.dfy` | `Symbols` | the symbol table, `skipFiltered`, `next()`, draining an iterator |
| `catalogue.dfy` | `Catalogue` | the image variants, equality, `imageNumbers` of the pseudo images, the file registry, `imageList`, `imageMap` |
| `views.dfy` | `Views` | `MultiImage` concatenation, `unfiltered`/`globals` |
| `queries.dfy` | `Queries` | `entries(withPrefix:)`, `entry(named:)`, `swiftSymbols(withSuffixes:)`, `mangle(swift:)` |
| `interposing.dfy` | `Interposing` | the `rebind` overloads, the subscript setters, `getInfo` and `DLKInfo.image` |
| `legacy.dfy` | `Legacy` | the older setter, iterator and reverse lookup in `DLKit.swift`, for contrast |

Modelling choices:

- **Addresses.** Addresses are integers and the header is an integer
  address.
- **Load commands.** An image is a map from byte offsets to the load command
  that decodes there, so a walk that lands between commands is a decode error.
- **Records.** The `nlist_64` records of a table are a sequence. A C string is
  read through a function from addresses to strings.
- **Parameters.** The following become parameters:
  - the loader (`_dyld_image_count`, image names, `Bundle.main` paths);
  - `dlsym`, `dladdr` and `trie_dladdr`;
  - the demangler;
  - the file reader;
  - fishhook's `rebind_symbols_image`, as a function from an image and the
    rebindings to the slots it writes.
- **Global state.** The process-wide file counter and path registry
  (`FileSymbols.fileNumber`, `filePaths`) are a `Registry` value. It is
  threaded through every call that can load a file.

Where the code and its documentation disagree, the model follows the code:

- **Duplicate names.** `rebind(rebindings:)` collects names per image. A name
  replaced in two images is reported twice (`Interposing.ReplacedKeepsDuplicates`).
- **Absent values.** An entry's value is absent when `n_sect == NO_SECT`, and
  also when `address_base + n_value` is 0, since
  `UnsafeMutableRawPointer(bitPattern:)` gives nil for 0.
- **The `isFile` argument.** Swift's `SymbolIterator` calls
  `init_symbol_iterator` with two arguments, but the C function takes three.
  `isFile` is therefore a parameter of the decoder.
- **The trie sentinel.** The trie pass starts from the sentinel `~0U`. If the
  last export command's offset is itself `0xFFFFFFFF`, the trie pointer stays
  unset, but its size is still written.
- **Missing segments.** If an `LC_SYMTAB` of a loaded image comes before its
  `__TEXT` or `__LINKEDIT` segment, the C code dereferences a null pointer.
  The model returns the error `MissingSegment` instead.
- **Re-masked file images.** A re-masked view of a registered file image
  re-reads the file. The file then gets a new fake number and a second
  registry entry (`Catalogue.RefilteredFileIsReloaded`).

## Model

| member | source | states |
|---|---|---|
| Decoder.Walk | Sources/DLKitC/DLKitC.c:35-36 | a successful walk yields exactly `ncmds` offsets: the first right after the header, each next one the previous plus that command's `cmdsize`; it fails only at an offset where no command decodes |
| Decoder.WalkVisitsSteps | Sources/DLKitC/DLKitC.c:35-36 | the walk succeeds iff every one of its `ncmds` steps lands on a command, and its k-th offset is where k forward steps of `cmdsize` arrive |
| Decoder.Commands | Sources/DLKitC/DLKitC.c:30-36 | the commands visited are `ncmds` many, in walk order, each the one decoding at its walk offset |
| Decoder.ScanNamed | Sources/DLKitC/DLKitC.c:44-52 | the first pass keeps the latest `__TEXT` and `__LINKEDIT` segments, writes no trie field, and leaves `address_base` zero while no `__TEXT` was seen |
| Decoder.ScanSegmentList | Sources/DLKitC/DLKitC.c:41-43 | segments are recorded in command order up to the array capacity and extra ones are dropped; `image_end` is the end of the last segment's file range |
| Decoder.ScanSymtab | Sources/DLKitC/DLKitC.c:56-67 | the symbol fields describe the last `LC_SYMTAB`: `symbol_count == nsyms`, symbols at `symoff + file_slide`, strings at `stroff + file_slide`; `file_slide` is 0 for a file and otherwise `(linkedit.vmaddr - text.vmaddr) - linkedit.fileoff` of the segments seen before it; `address_base = header - text.vmaddr` only when a `__TEXT` was seen; all zero without an `LC_SYMTAB` |
| Decoder.ScanFails | Sources/DLKitC/DLKitC.c:59-60 | the first pass fails iff the image is loaded (not a file) and some `LC_SYMTAB` has no `__TEXT` or no `__LINKEDIT` before it |
| Decoder.TrieFoldLastWins | Sources/DLKitC/DLKitC.c:71-92 | among `LC_DYLD_INFO`, `LC_DYLD_INFO_ONLY` and `LC_DYLD_EXPORTS_TRIE`, the last one decides both the trie offset and the size; without one the `~0U` sentinel survives |
| Decoder.InitSymbolIterator | Sources/DLKitC/DLKitC.c:23-97 | decoding succeeds iff the walk and the first pass do; the first pass's fields are kept; the trie size is the last export command's; the trie pointer is set only when its offset is not `~0U`, at the header plus the offset (a file's own, or rebased into the loaded link-edit segment) truncated to 32 bits |
| Symbols.StateEntries | Sources/DLKit/Iterators.swift:42-53 | the unfiltered iterator over the table an iterator state describes yields `symbol_count` entries, entry k reading the record at `symbols + 16 * k` with its name at `strings_base + 1 + n_strx` and its value absent iff undefined or at address 0 |
| Symbols.ScannedEntries | Sources/DLKitC/DLKitC.c:56-67 | when the first pass succeeds and command j is the last `LC_SYMTAB`, the unfiltered iterator over the resulting table yields exactly that command's `nsyms` entries, records read from `header + symoff + file_slide` and names from `header + stroff + file_slide + 1 + n_strx` |
| Symbols.ScannedWithoutSymtab | Sources/DLKitC/DLKitC.c:56-67 | without an `LC_SYMTAB` the iterator yields no entry under any mask |
| Symbols.DecodedTable | Sources/DLKitC/DLKitC.c:71-92 | the table of the whole decoder's result is the first pass's, since the second pass only writes the trie fields |
| Symbols.SkipFiltered | Sources/DLKit/ImageSymbols.swift:79-85 | the cursor only moves forward, not at all with mask 0, never past `symbol_count`, over excluded records only, and stops at the end or at a record with no masked type bit and a section |
| Symbols.Next | Sources/DLKit/Iterators.swift:42-53 | after skipping, `next()` gives nil iff the cursor reached `symbol_count` (every remaining record being excluded) and then leaves the cursor where skipping stopped, so a further `next()` is nil again; otherwise it yields the record at the cursor with the owner's number, name `strings_base + 1 + n_strx` and value `address_base + n_value` unless undefined, and advances exactly one past it |
| Symbols.Drain | Sources/DLKit/Iterators.swift:42-46 | the drained entries come from records of the table past the cursor, in strictly increasing record order, so none repeats |
| Symbols.DrainSound | Sources/DLKit/Iterators.swift:43-52 | every drained entry is the entry of its record, and that record passes the filter |
| Symbols.DrainComplete | Sources/DLKit/ImageSymbols.swift:80-84 | every record past the cursor that passes the filter is drained |
| Symbols.DrainRepeatsNext | Sources/DLKit/Iterators.swift:42-53 | draining is calling `next()` until it reports the end |
| Symbols.EntriesYield | Sources/DLKit/Iterators.swift:47-51 | an image's entries are exactly the entries of the records that pass its filter |
| Symbols.UnfilteredDrainsAll | Sources/DLKit/ImageSymbols.swift:80 | with mask 0 every record from the cursor on is yielded, in order |
| Symbols.UnfilteredYieldsEveryRecord | Sources/DLKit/Iterators.swift:79-80 | the mask-0 view has one entry per record, record k at position k, undefined ones included |
| Symbols.FilteredEntriesAreDefined | Sources/DLKit/Iterators.swift:25-27 | under a non-zero mask no entry is undefined, and under a mask holding the stab bits no entry is debugging (`n_type & N_STAB != 0`) |
| Symbols.YieldsSameRecord | Sources/DLKit/Iterators.swift:47-52 | what is yielded for a record does not depend on the mask |
| Symbols.MaskRefinement | Sources/DLKit/Iterators.swift:83-84 | masking more bits only drops entries: every entry of the wider view is an entry of the narrower one |
| Catalogue.SameImageFacts | Sources/DLKit/ImageSymbols.swift:25-27 | equality compares image numbers only, so a re-filtered view of any image equals its owner |
| Catalogue.SelectedSpec | Sources/DLKit/DLKit.swift:263-270 | filtering `0..<count` keeps exactly the numbers whose path passes, in increasing order |
| Catalogue.ImageSelection | Sources/DLKit/DLKit.swift:252-271 | all-images is exactly `0..<count` in order; app-images is increasing and holds exactly the images equal to the main executable, under the private-frameworks prefix (`"~~"` when absent), containing `/DerivedData/` and `.framework/`, or containing `/eval` |
| Catalogue.MainSelection | Sources/DLKit/DLKit.swift:281-286 | main-image numbers are exactly the images whose path is the main executable's, in increasing order |
| Catalogue.MakeMainImage | Sources/DLKit/DLKit.swift:276-280 | the main image's number is the first image whose path is the main executable's; `imageNumbers[0]` demands that one exists |
| Catalogue.LoadFile | Sources/DLKit/FileSymbols.swift:33-40 | a file loads iff it is readable and its magic is `MH_MAGIC_64`; it then gets the current counter value, its path is registered under it and the counter grows by one; on failure counter and registry are unchanged |
| Catalogue.LoadsAreFresh | Sources/DLKit/FileSymbols.swift:36-39 | successive loads hand out strictly increasing numbers, never one registered before, each registered afterwards, and the registry only grows |
| Catalogue.ListForSpec | Sources/DLKit/ImageSymbols.swift:54-63 | one listed image per number, in order; each is the plain image under the view's mask, or (non-default mask and registered number only) a freshly loaded file image of that number's path; the default mask lists plain images and leaves the registry alone |
| Catalogue.ImageListSpec | Sources/DLKit/ImageSymbols.swift:54-63 | `imageList` of a file image is itself; of any other image, one element per `imageNumbers` entry as above |
| Catalogue.RefilteredFileIsReloaded | Sources/DLKit/ImageSymbols.swift:56-58 | the unfiltered view of a registered file image lists a new file image of the same path under a new, registered number |
| Catalogue.ImageMapKeys | Sources/DLKit/ImageSymbols.swift:65-69 | every key of `imageMap` is the key of a listed image |
| Catalogue.ImageMapFinds | Sources/DLKit/ImageSymbols.swift:65-69 | every listed image is found under its own key |
| Catalogue.ImageMapSize | Sources/DLKit/ImageSymbols.swift:65-69 | with unique keys no image is lost: one key per image |
| Common.LastPathComponent | Sources/DLKit/DLKit.swift:101-103 | once trailing slashes are trimmed, the key is the non-empty tail of the path that holds no `/` and is either the whole trimmed path or starts right after a `/`; a path of slashes only gives `/`, the empty path gives the empty key |
| Views.MultiEntriesLayout | Sources/DLKit/Iterators.swift:57-60 | a multi-image's entries are its list's entries in list order: entry j of element k sits after all entries of the elements before k |
| Views.MultiEntriesMembers | Sources/DLKit/Iterators.swift:59 | an entry is in the concatenation iff it is an entry of some listed image |
| Views.ReMaskedViews | Sources/DLKit/Iterators.swift:67-84 | `unfiltered` (mask 0) and `globals` (`N_STAB or N_PEXT`) report exactly the owner's image numbers, equal the owner and are multi-images |
| Views.RefilteredLoadedImage | Sources/DLKit/Iterators.swift:67-76 | a re-filtered loaded image that is not a registered file iterates that image under the new mask and leaves the registry alone |
| Views.UnfilteredLoadedImage | Sources/DLKit/Iterators.swift:79-80 | the unfiltered view of such an image yields every record in order |
| Views.GlobalsWithinDefault | Sources/DLKit/Iterators.swift:83-84 | every entry of the globals view is an entry of the default view |
| Views.PlainListingEntries | Sources/DLKit/Iterators.swift:59 | over plain images, the concatenation holds exactly the entries their iterators yield |
| Views.AllImagesEntries | Sources/DLKit/Iterators.swift:57-63 | the all-images view yields exactly the default-filtered entries of every loaded image and loads no file |
| Queries.WithPrefixSpec | Sources/DLKit/ImageSymbols.swift:107-110 | the prefix scan is an order-preserving selection of exactly the entries whose name starts with the prefix; the empty prefix keeps all |
| Queries.Named | Sources/DLKit/ImageSymbols.swift:112-114 | `entry(named:)` is nil iff no entry has the name, and otherwise the first entry that has it |
| Queries.NamedThroughPrefixScan | Sources/DLKit/ImageSymbols.swift:107-114 | an exact lookup inside the prefix scan for the whole name finds the same first match as over all entries, so a named entry is among that scan's results |
| Queries.SwiftSymbolsSpec | Sources/DLKit/ImageSymbols.swift:97-105 | `swiftSymbols` is an order-preserving selection of exactly the defined `$s` entries ending with a given suffix (any, when none are given); suffixes only narrow |
| Queries.ClassMetadataKept | Tests/DLKitTests/DLKitTests.swift:42-43 | the defined class-metadata symbol `$s10DLKitTestsAACN` passes the `CN` filter |
| Queries.Mangle | Sources/DLKit/ImageSymbols.swift:91-93 | `mangle(swift:)` is nil iff no entry demangles to the text, and otherwise the first entry that does |
| Interposing.PrepareSources | Sources/DLKit/Interposing.swift:58-65 | the rebindings come from exactly the indices below `values.count` with a non-nil value, in increasing index order, each pairing that index's name and value |
| Interposing.PrepareMissing | Sources/DLKit/Interposing.swift:59-62 | exactly the indices without a replacement are logged as missing |
| Interposing.AfterHook | Sources/DLKit/Interposing.swift:78-87 | after re-arming and the primitive, a slot differs from its sentinel iff the primitive changed it |
| Interposing.Rebind | Sources/DLKit/Interposing.swift:73-93 | the loop (re-arm every slot, run the primitive, collect changed slots) returns exactly the per-image names of changed slots, image after image |
| Interposing.MatchedNamesSpec | Sources/DLKit/Interposing.swift:85-90 | one image contributes at most one name per rebinding, exactly the names of changed slots |
| Interposing.ReplacedSpec | Sources/DLKit/Interposing.swift:75-92 | the result has at most images × rebindings names, and a name is in it iff some rebinding with that name changed its slot in some image |
| Interposing.NothingChangedNothingReplaced | Sources/DLKit/Interposing.swift:85-90 | if the primitive changes no slot, nothing is replaced |
| Interposing.ReplacedKeepsDuplicates | Sources/DLKit/Interposing.swift:75-91 | a rebinding applied in two images is reported twice |
| Interposing.RebindNamesLog | Sources/DLKit/Interposing.swift:56-72 | each index without a replacement is logged, and the reminder is logged iff warning was asked for, nothing was replaced and some name was given |
| Interposing.RebindNamesReplaced | Sources/DLKit/Interposing.swift:56-72 | only names given with a replacement are reported, at most one per image and kept rebinding |
| Interposing.Resolve | Sources/DLKit/Interposing.swift:41-49 | each replacement name is looked up in the scope, position by position |
| Interposing.UnresolvedMessages | Sources/DLKit/Interposing.swift:42-48 | a replacement name is logged as unresolved iff its lookup fails |
| Interposing.RebindSymbolsSpec | Sources/DLKit/Interposing.swift:38-50 | an unresolved replacement is logged, its index is dropped as missing and the call goes on; a resolved one is never reported missing |
| Interposing.MappingKeepsPairs | Sources/DLKit/Interposing.swift:31-37 | every key is bound to what its own value resolves to, and every rebinding comes from one pair |
| Interposing.SettersWarn | Sources/DLKit/Interposing.swift:123-148 | the name and pointer setters always warn when a non-empty assignment replaced nothing; assigning nil to one name logs the missing replacement and the reminder and replaces nothing |
| Interposing.SymbolSetterWarns | Sources/DLKit/Interposing.swift:149-155 | the name-lookup setter `self[symbols] = valueNames` warns exactly when a non-empty assignment replaced nothing |
| Interposing.GetInfo | Sources/DLKit/Interposing.swift:112-117 | `getInfo` is nil iff both `dladdr` and `trie_dladdr` fail; it returns `dladdr`'s info when that succeeds and otherwise `trie_dladdr`'s, always with the asking image as owner |
| Interposing.MatchingImage | Sources/DLKit/Interposing.swift:103-109 | `DLKInfo.image` picks the first image with the identical path pointer and, only when there is none, the first with an equal path |
| Legacy.LegacyBindings | Sources/DLKit/DLKit.swift:157-159 | the older setter builds one rebinding per name: with every value present these are exactly the newer code's rebindings; a nil value binds the null pointer where the newer code drops the index, so it then has fewer rebindings |
| Legacy.PrepareSplits | Sources/DLKit/Interposing.swift:58-65 | the newer code turns every name index into either a rebinding or a logged missing replacement, so their counts add up to the number of names |
| Legacy.LegacySet | Sources/DLKit/DLKit.swift:160-184 | the older setter's count is the number of (image, rebinding) replacements the newer code reports for the same rebindings, and it warns iff no slot changed in any image |
| Legacy.NoneReplacedNoneChanged | Sources/DLKit/Interposing.swift:75-92 | the newer result is empty iff no rebinding's slot changed in any image |
| Legacy.ChangedCountIsMatched | Sources/DLKit/DLKit.swift:173-178 | its per-image count is the number of names the newer check collects for that image |
| Legacy.LegacyCountsReplaced | Sources/DLKit/DLKit.swift:163-179 | its total counts every (image, rebinding) slot change, the newer result's length |
| Legacy.EmptyBatchWarnsOnlyInLegacy | Sources/DLKit/DLKit.swift:182-184 | an empty assignment makes the older setter warn and the newer one stay quiet |
| Legacy.LegacyAgreesWhenAllPresent | Sources/DLKit/DLKit.swift:157-180 | with every value present, the older count is the newer result's length |
| Legacy.LegacyEntries | Sources/DLKit/DLKit.swift:233-242 | the older iterator yields one element per record |
| Legacy.LegacyIsUnfilteredShifted | Sources/DLKit/DLKit.swift:233-242 | the older iterator is the unfiltered view with every name address one byte earlier (`strings_base + n_strx`, no `+1`) |
| Legacy.LegacyLookup | Sources/DLKit/DLKit.swift:193-201 | the older reverse lookup uses `dladdr` only and picks the first image whose path is identical or equal, nil when none |
| Legacy.LookupPreferenceDiffers | Sources/DLKit/DLKit.swift:196-199 | where an earlier image only has an equal path and a later one the identical pointer, the older lookup picks the earlier and the newer the later |

## Left out

- Loader calls (`_dyld_*`, `dlopen`, `dlsym`, `dladdr`, `trie_dladdr`), `Bundle.main` and file reading are parameters. Their behaviour is not modelled.
- fishhook's rewriting of lazy and non-lazy pointers is foreign code. It is a parameter that may write any slots.
- The demanglers in `Demangling.swift` are foreign wrappers. The demangler is a partial function parameter.
- Swift's overflow traps in `address_base + Int(n_value)` and in `next_symbol += 1`. Integers are unbounded there; `address_base` and `file_slide` wrap to 64 bits as in C.
- `UInt8(typeMask)`: masks are bytes (`bv8`) throughout. The conversion from `Int32`, which traps above 255, is not modelled; every mask the library passes (0, `N_STAB`, `N_STAB | N_PEXT`) fits in a byte.
- The default mask is the constant `N_STAB`. That the static `mask` can be reassigned at run time is not modelled.
- `URL(fileURLWithPath:)` standardisation (`.`/`..`, relative paths against the working directory) is not modelled. `Common.LastPathComponent` takes the path as already absolute and standardised.
- Catalogue.Loader: `Bundle.main.executablePath` is `String?`, and the source passes it to `strcmp` unchecked (Sources/DLKit/DLKit.swift:260-265 and 282-284), so a nil path reaches `strcmp(NULL, …)`. The model assumes the path is present: `mainExecutable` is a `string`.
- Legacy.LegacySet: the older setter reads `newValue[$0]` for every name index (Sources/DLKit/DLKit.swift:158) and traps when there are fewer values than names. The model excludes that case by the precondition `|names| <= |values|` (also on `Legacy.LegacyBindings`); the newer code guards it with `$0 < values.count`.
- Catalogue.ImageMapFinds: `Dictionary(uniqueKeysWithValues:)` traps on a duplicate key. That trap is the precondition `UniqueKeys`, and the key function is a parameter.
- The dictionary enumeration order of `rebind(mapping:)` is not modelled. It is given as the sequence of pairs.
- The `withCString { $0 }` pointers of the `String` overloads escape their closure. The model treats them as the names themselves.
- Fat (multi-architecture) files, thread safety of the file registry, `description` strings, `save()` and `self_caller_address` are not modelled.
- The getters of the subscripts (`dlopen` + `dlsym`) are not modelled. They are foreign lookups.
- The older `mangle(swift:)` (Sources/DLKit/DLKit.swift:206-212) is not modelled. It returns `name + 1` of the old un-offset iterator.
- Interposing.InfoImage only composes `MatchingImage` with `imageNumbers`. The contract is on `Interposing.MatchingImage`.
- Pseudo images: `AnyImage`, `AppImages` and `MainImage` subclass `ImageSymbols`, whose `makeIterator` (Sources/DLKit/DLKit.swift:225-226) iterates the single image number (`~0`, or `imageNumbers[0]` for `MainImage`). The model takes the evident intent instead: they iterate their `imageList` like a `MultiImage` (`Views.IsMultiImage`).
- Short files: `init?(path:)` reads the header's magic with no length check (Sources/DLKit/FileSymbols.swift:37), so a file shorter than four bytes is read out of bounds. The model assumes such a file fails the magic check (`Catalogue.Magic` is `None`).
- String comparison: Swift's `String ==` and `hasSuffix` compare by canonical equivalence. The model compares strings code point by code point (`Queries.IsSwiftSymbol`, `Queries.Mangle`, `Common.IsSuffix`), and `String(cString:)` decoding is the identity on code points.
- The per-image symbol tables of `Views` (`Views.Tables`) are a parameter. `Symbols.ScannedEntries` and `Symbols.DecodedTable` relate a decoded iterator state to the entries its table yields; that every image's table is the decoded one is not stated in `Views`.
- `Sources/DLKitC/include/DLKitC.h` is not part of this model. The iterator state's shape follows what `DLKitC.c` writes.

=== FILE: catalogue.dfy ===
/** The image catalogue: which images an `ImageSymbols` value stands for.
    A plain image is one loaded image; the pseudo images stand for all loaded
    images, the application's own images or the main executable; a file image
    is a Mach-O file read from disk under a fake image number handed out from a
    process-wide counter and recorded in a process-wide path registry; a
    re-filtered view is another image seen through a different type mask. */
module Catalogue {
  import opened Common
  import opened MachO

  /** What the dynamic loader and the main bundle report. */
  datatype Loader = Loader(
    /** `_dyld_image_count()` */
    count: nat,
    /** `_dyld_get_image_name(i)`, as the address of a C string */
    namePtr: nat -> int,
    /** the NUL-terminated string stored at an address */
    cstr: int -> string,
    /** `Bundle.main.executablePath` */
    mainExecutable: string,
    /** `Bundle.main.privateFrameworksPath` */
    privateFrameworks: Option<string>)

  function ImagePath(loader: Loader, n: nat): string {
    loader.cstr(loader.namePtr(n))
  }

  /** `~0` as a 32-bit image index: the number the all-images and
      application-images pseudo images carry. */
  const AnyImageNumber: nat := 0xffff_ffff

  /** The default type mask `ImageSymbols.mask`: skip stab entries. */
  const DefaultMask: bv8 := N_STAB

  datatype ImageSymbols =
    /** `ImageSymbols(imageNumber:typeMask:)`: one loaded image. */
    | Single(number: nat, mask: bv8)
    /** `FileSymbols(path:typeMask:)`: a Mach-O file read into memory. */
    | File(number: nat, mask: bv8, path: string)
    /** `AnyImage`: every loaded image. */
    | AllImages
    /** `AppImages`: the loaded images that belong to the application. */
    | AppImages
    /** `MainImage`, with the number fixed when it was constructed. */
    | MainImage(number: nat)
    /** `RefilteredSymbols(owner:typeMask:)`: the `unfiltered` and `globals` views. */
    | Refiltered(owner: ImageSymbols, mask: bv8)

  function ImageNumber(image: ImageSymbols): nat {
    match image
    case Single(n, _) => n
    case File(n, _, _) => n
    case AllImages => AnyImageNumber
    case AppImages => AnyImageNumber
    case MainImage(n) => n
    case Refiltered(owner, _) => ImageNumber(owner)
  }

  function TypeMask(image: ImageSymbols): bv8 {
    match image
    case Single(_, m) => m
    case File(_, m, _) => m
    case Refiltered(_, m) => m
    case _ => DefaultMask
  }

  /** `==` on `ImageSymbols`: compare the image numbers only. */
  predicate SameImage(a: ImageSymbols, b: ImageSymbols) {
    ImageNumber(a) == ImageNumber(b)
  }

  /** Equality ignores masks and views: a re-filtered view equals its owner. */
  lemma SameImageFacts(a: ImageSymbols, m: bv8)
    ensures SameImage(Refiltered(a, m), a)
  {
  }

  // ---------------------------------------------------------------------------
  // Image-number selection

  /** The application-images filter on one image path. */
  predicate IsAppImagePath(loader: Loader, path: string) {
    || path == loader.mainExecutable
    || IsPrefix(loader.privateFrameworks.GetOr("~~"), path)
    || (Contains(path, "/DerivedData/") && Contains(path, ".framework/"))
    || Contains(path, "/eval")
  }

  function AllNumbers(loader: Loader): seq<nat> {
    Range(loader.count)
  }

  /** The filters the pseudo images apply to the loaded images. */
  datatype Selection = App | Main

  predicate Keeps(loader: Loader, which: Selection, n: nat) {
    match which
    case App => IsAppImagePath(loader, ImagePath(loader, n))
    case Main => ImagePath(loader, n) == loader.mainExecutable
  }

  /** `(0 ..< count).filter { ... }`: the kept image numbers below `count`. */
  function Selected(loader: Loader, which: Selection, count: nat): seq<nat>
    decreases count
  {
    if count == 0 then []
    else
      var init := Selected(loader, which, count - 1);
      if Keeps(loader, which, count - 1) then init + [count - 1] else init
  }

  /** The selection is in increasing order and holds exactly the kept
      numbers below `count`. */
  lemma {:induction false} SelectedSpec(loader: Loader, which: Selection, count: nat)
    ensures StrictlyIncreasing(Selected(loader, which, count))
    ensures forall i :: 0 <= i < |Selected(loader, which, count)| ==> Selected(loader, which, count)[i] < count
    ensures forall n: nat :: n in Selected(loader, which, count) <==> n < count && Keeps(loader, which, n)
    decreases count
  {
    if count > 0 {
      SelectedSpec(loader, which, count - 1);
    }
  }

  function AppNumbers(loader: Loader): seq<nat> {
    Selected(loader, App, loader.count)
  }

  function MainNumbers(loader: Loader): seq<nat> {
    Selected(loader, Main, loader.count)
  }

  /** `imageNumbers`: the images a value stands for, recomputed on each use
      for the pseudo images. */
  function ImageNumbers(image: ImageSymbols, loader: Loader): seq<nat> {
    match image
    case Single(n, _) => [n]
    case File(n, _, _) => [n]
    case AllImages => AllNumbers(loader)
    case AppImages => AppNumbers(loader)
    case MainImage(_) => MainNumbers(loader)
    case Refiltered(owner, _) => ImageNumbers(owner, loader)
  }

  /** All images are numbered 0 ..< count in increasing order; the
      application images are, in the same order, exactly the images whose
      path passes the filter. */
  lemma ImageSelection(loader: Loader)
    ensures |ImageNumbers(AllImages, loader)| == loader.count
    ensures forall i :: 0 <= i < loader.count ==> ImageNumbers(AllImages, loader)[i] == i
    ensures StrictlyIncreasing(ImageNumbers(AllImages, loader))
    ensures StrictlyIncreasing(ImageNumbers(AppImages, loader))
    ensures forall n: nat :: n in ImageNumbers(AppImages, loader) <==>
      n < loader.count && IsAppImagePath(loader, ImagePath(loader, n))
  {
    SelectedSpec(loader, App, loader.count);
  }

  /** The main-image numbers are exactly the loaded images whose path is the
      main executable's, in load order. */
  lemma MainSelection(loader: Loader)
    ensures StrictlyIncreasing(MainNumbers(loader))
    ensures forall n: nat :: n in MainNumbers(loader) <==>
      n < loader.count && ImagePath(loader, n) == loader.mainExecutable
  {
    SelectedSpec(loader, Main, loader.count);
  }

  /** `MainImage()`: the first image whose path is the main executable's;
      `imageNumbers[0]` traps when there is none. */
  function MakeMainImage(loader: Loader): (image: ImageSymbols)
    requires exists n: nat :: n < loader.count && ImagePath(loader, n) == loader.mainExecutable
    ensures image.MainImage?
    ensures image.number < loader.count && ImagePath(loader, image.number) == loader.mainExecutable
    ensures forall n: nat :: n < image.number ==> ImagePath(loader, n) != loader.mainExecutable
  {
    MainSelection(loader);
    var n: nat :| n < loader.count && ImagePath(loader, n) == loader.mainExecutable;
    assert n in MainNumbers(loader);
    var first := MainNumbers(loader)[0];
    assert forall j :: 0 <= j < |MainNumbers(loader)| ==> first <= MainNumbers(loader)[j];
    MainImage(first)
  }

  // ---------------------------------------------------------------------------
  // The file-image registry

  /** `FileSymbols.fileNumber`'s first value. */
  const FirstFileNumber: nat := 1_000_000

  /** `FileSymbols.fileNumber` and `FileSymbols.filePaths`. */
  datatype Registry = Registry(fileNumber: nat, filePaths: map<nat, string>)

  const InitialRegistry: Registry := Registry(FirstFileNumber, map[])

  /** Every registered number was handed out from the counter. */
  predicate RegistryValid(r: Registry) {
    && r.fileNumber >= FirstFileNumber
    && forall n :: n in r.filePaths ==> FirstFileNumber <= n < r.fileNumber
  }

  /** `b` is `a` with possibly more numbers handed out and registered. */
  predicate Grows(a: Registry, b: Registry) {
    && a.fileNumber <= b.fileNumber
    && forall n :: n in a.filePaths ==> n in b.filePaths && b.filePaths[n] == a.filePaths[n]
  }

  /** The header magic a little-endian host reads from the first four bytes;
      none when the file is shorter than a header's first field. */
  function Magic(bytes: seq<u8>): Option<u32> {
    if |bytes| < 4 then None
    else Some(bytes[0] as int + 0x100 * bytes[1] as int + 0x1_0000 * bytes[2] as int + 0x100_0000 * bytes[3] as int)
  }

  datatype Loaded = Loaded(image: Option<ImageSymbols>, registry: Registry)

  /** `FileSymbols(path:typeMask:)`, with `read` standing for
      `NSMutableData(contentsOfFile:)`. */
  function LoadFile(reg: Registry, path: string, mask: bv8, read: string -> Option<seq<u8>>): (r: Loaded)
    ensures r.image.Some? <==> read(path).Some? && Magic(read(path).value) == Some(MH_MAGIC_64)
    ensures r.image.Some? ==>
      && r.image.value == File(reg.fileNumber, mask, path)
      && r.registry.fileNumber == reg.fileNumber + 1
      && r.registry.filePaths == reg.filePaths[reg.fileNumber := path]
    ensures r.image.None? ==> r.registry == reg
    ensures RegistryValid(reg) ==> RegistryValid(r.registry) && Grows(reg, r.registry)
  {
    match read(path)
    case None => Loaded(None, reg)
    case Some(data) =>
      if Magic(data) != Some(MH_MAGIC_64) then Loaded(None, reg)
      else Loaded(Some(File(reg.fileNumber, mask, path)),
                  Registry(reg.fileNumber + 1, reg.filePaths[reg.fileNumber := path]))
  }

  /** The numbers successive `FileSymbols(path:)` calls hand out, and the registry after them. */
  datatype Loads = Loads(numbers: seq<nat>, registry: Registry)

  function LoadFiles(reg: Registry, paths: seq<string>, mask: bv8, read: string -> Option<seq<u8>>): Loads
    decreases |paths|
  {
    if |paths| == 0 then Loads([], reg)
    else
      var first := LoadFile(reg, paths[0], mask, read);
      var rest := LoadFiles(first.registry, paths[1..], mask, read);
      if first.image.Some? then Loads([first.image.value.number] + rest.numbers, rest.registry)
      else rest
  }

  /** Successive loads hand out strictly increasing, hence distinct, fresh
      numbers, each registered under its path, and the registry only grows. */
  lemma {:induction false} LoadsAreFresh(reg: Registry, paths: seq<string>, mask: bv8, read: string -> Option<seq<u8>>)
    requires RegistryValid(reg)
    ensures var r := LoadFiles(reg, paths, mask, read);
      && RegistryValid(r.registry)
      && Grows(reg, r.registry)
      && StrictlyIncreasing(r.numbers)
      && (forall i :: 0 <= i < |r.numbers| ==>
            reg.fileNumber <= r.numbers[i] < r.registry.fileNumber
            && r.numbers[i] !in reg.filePaths
            && r.numbers[i] in r.registry.filePaths)
    decreases |paths|
  {
    if |paths| > 0 {
      var first := LoadFile(reg, paths[0], mask, read);
      LoadsAreFresh(first.registry, paths[1..], mask, read);
    }
  }

  // ---------------------------------------------------------------------------
  // imageList and imageMap

  datatype Listed = Listed(images: seq<ImageSymbols>, registry: Registry)

  /** One element of `imageList`: a fresh file image re-read under the view's
      mask when the mask is not the default and the number names a registered
      file that still loads; otherwise a plain image. */
  function ListElement(n: nat, mask: bv8, reg: Registry, read: string -> Option<seq<u8>>): Loaded {
    if mask != DefaultMask && n in reg.filePaths then
      var loaded := LoadFile(reg, reg.filePaths[n], mask, read);
      if loaded.image.Some? then loaded else Loaded(Some(Single(n, mask)), reg)
    else Loaded(Some(Single(n, mask)), reg)
  }

  /** `imageNumbers.map { ... }`, the registry threaded through in order. */
  function ListFor(ns: seq<nat>, mask: bv8, reg: Registry, read: string -> Option<seq<u8>>): (r: Listed)
    ensures |r.images| == |ns|
    decreases |ns|
  {
    if |ns| == 0 then Listed([], reg)
    else
      var first := ListElement(ns[0], mask, reg, read);
      var rest := ListFor(ns[1..], mask, first.registry, read);
      Listed([first.image.value] + rest.images, rest.registry)
  }

  /** `imageList`: a file image lists itself; every other image lists one
      element per image number. */
  function ImageList(image: ImageSymbols, loader: Loader, reg: Registry, read: string -> Option<seq<u8>>): Listed {
    if image.File? then Listed([image], reg)
    else ListFor(ImageNumbers(image, loader), TypeMask(image), reg, read)
  }

  /** Element `k` of a listing is the plain image for `ns[k]` under the view's
      mask, or, only for a non-default mask and a registered number, a file
      image re-read from that number's path under a fresh number. */
  predicate ListedAs(e: ImageSymbols, n: nat, mask: bv8, reg: Registry, final: Registry) {
    || e == Single(n, mask)
    || (&& mask != DefaultMask
        && e.File? && e.mask == mask
        && n in final.filePaths && e.path == final.filePaths[n]
        && reg.fileNumber <= e.number < final.fileNumber
        && e.number in final.filePaths && final.filePaths[e.number] == e.path)
  }

  lemma {:induction false} ListForSpec(ns: seq<nat>, mask: bv8, reg: Registry, read: string -> Option<seq<u8>>)
    requires RegistryValid(reg)
    ensures var r := ListFor(ns, mask, reg, read);
      && RegistryValid(r.registry)
      && Grows(reg, r.registry)
      && (forall k :: 0 <= k < |ns| ==> ListedAs(r.images[k], ns[k], mask, reg, r.registry))
      && (mask == DefaultMask ==> r.registry == reg && forall k :: 0 <= k < |ns| ==> r.images[k] == Single(ns[k], mask))
    decreases |ns|
  {
    if |ns| > 0 {
      var first := ListElement(ns[0], mask, reg, read);
      var rest := ListFor(ns[1..], mask, first.registry, read);
      ListForSpec(ns[1..], mask, first.registry, read);
      var r := ListFor(ns, mask, reg, read);
      assert r.images == [first.image.value] + rest.images;
      forall k | 0 <= k < |ns|
        ensures ListedAs(r.images[k], ns[k], mask, reg, r.registry)
      {
        if k > 0 {
          assert r.images[k] == rest.images[k - 1] && ns[k] == ns[1..][k - 1];
          assert reg.fileNumber <= first.registry.fileNumber;
        }
      }
    }
  }

  /** `imageList` lists a file image as itself and any other image element by
      element, one per image number, in order. */
  lemma ImageListSpec(image: ImageSymbols, loader: Loader, reg: Registry, read: string -> Option<seq<u8>>)
    requires RegistryValid(reg)
    ensures var r := ImageList(image, loader, reg, read);
      && RegistryValid(r.registry)
      && Grows(reg, r.registry)
      && (image.File? ==> r.images == [image] && r.registry == reg)
      && (!image.File? ==>
            var ns := ImageNumbers(image, loader);
            && |r.images| == |ns|
            && (forall k :: 0 <= k < |ns| ==> ListedAs(r.images[k], ns[k], TypeMask(image), reg, r.registry))
            && (TypeMask(image) == DefaultMask ==>
                  r.registry == reg && forall k :: 0 <= k < |ns| ==> r.images[k] == Single(ns[k], DefaultMask)))
  {
    if !image.File? {
      ListForSpec(ImageNumbers(image, loader), TypeMask(image), reg, read);
    }
  }

  /** Re-filtering a file image re-reads the file: the listed image carries a
      new number, and the path is registered a second time under it. */
  lemma RefilteredFileIsReloaded(n: nat, path: string, loader: Loader, reg: Registry, read: string -> Option<seq<u8>>)
    requires RegistryValid(reg) && n in reg.filePaths && reg.filePaths[n] == path
    requires read(path).Some? && Magic(read(path).value) == Some(MH_MAGIC_64)
    ensures var r := ImageList(Refiltered(File(n, DefaultMask, path), 0), loader, reg, read);
      && r.images == [File(reg.fileNumber, 0, path)]
      && reg.fileNumber != n
      && reg.fileNumber in r.registry.filePaths
      && r.registry.filePaths[reg.fileNumber] == path
  {
    assert ImageNumbers(Refiltered(File(n, DefaultMask, path), 0), loader) == [n];
    assert TypeMask(Refiltered(File(n, DefaultMask, path), 0)) == 0;
    var first := ListElement(n, 0, reg, read);
    assert first.image == Some(File(reg.fileNumber, 0, path));
    assert ListFor([n], 0, reg, read) == Listed([first.image.value], first.registry) by {
      assert [n][1..] == [];
    }
  }

  /** Image keys are pairwise distinct: `Dictionary(uniqueKeysWithValues:)` traps otherwise. */
  predicate UniqueKeys(list: seq<ImageSymbols>, keyOf: ImageSymbols -> string) {
    forall i, j :: 0 <= i < j < |list| ==> keyOf(list[i]) != keyOf(list[j])
  }

  /** `imageMap`: the listed images keyed by `keyOf` (the image key of each
      image's path). */
  function ImageMap(list: seq<ImageSymbols>, keyOf: ImageSymbols -> string): map<string, ImageSymbols>
    requires UniqueKeys(list, keyOf)
    decreases |list|
  {
    if |list| == 0 then map[]
    else
      var init := list[..|list| - 1];
      assert UniqueKeys(init, keyOf);
      ImageMap(init, keyOf)[keyOf(list[|list| - 1]) := list[|list| - 1]]
  }

  /** Every key of the map is the key of a listed image. */
  lemma {:induction false} ImageMapKeys(list: seq<ImageSymbols>, keyOf: ImageSymbols -> string)
    requires UniqueKeys(list, keyOf)
    ensures forall key :: key in ImageMap(list, keyOf) ==> exists k :: 0 <= k < |list| && keyOf(list[k]) == key
    decreases |list|
  {
    if |list| > 0 {
      var init := list[..|list| - 1];
      assert UniqueKeys(init, keyOf);
      ImageMapKeys(init, keyOf);
      assert ImageMap(list, keyOf) == ImageMap(init, keyOf)[keyOf(list[|list| - 1]) := list[|list| - 1]];
      forall key | key in ImageMap(list, keyOf)
        ensures exists k :: 0 <= k < |list| && keyOf(list[k]) == key
      {
        if key != keyOf(list[|list| - 1]) {
          var k :| 0 <= k < |init| && keyOf(init[k]) == key;
          assert list[k] == init[k];
        }
      }
    }
  }

  /** The last image's key is not among the keys of the images before it. */
  lemma LastKeyIsNew(list: seq<ImageSymbols>, keyOf: ImageSymbols -> string)
    requires |list| > 0 && UniqueKeys(list, keyOf)
    ensures UniqueKeys(list[..|list| - 1], keyOf)
    ensures keyOf(list[|list| - 1]) !in ImageMap(list[..|list| - 1], keyOf)
  {
    var init := list[..|list| - 1];
    assert UniqueKeys(init, keyOf);
    ImageMapKeys(init, keyOf);
    forall k | 0 <= k < |init|
      ensures keyOf(init[k]) != keyOf(list[|list| - 1])
    {
      assert init[k] == list[k];
    }
  }

  /** Every listed image is found under its own key. */
  lemma {:induction false} ImageMapFinds(list: seq<ImageSymbols>, keyOf: ImageSymbols -> string)
    requires UniqueKeys(list, keyOf)
    ensures forall k :: 0 <= k < |list| ==> keyOf(list[k]) in ImageMap(list, keyOf) && ImageMap(list, keyOf)[keyOf(list[k])] == list[k]
    decreases |list|
  {
    if |list| > 0 {
      var init := list[..|list| - 1];
      assert UniqueKeys(init, keyOf);
      ImageMapFinds(init, keyOf);
      forall k | 0 <= k < |init|
        ensures keyOf(list[k]) != keyOf(list[|list| - 1]) && list[k] == init[k]
      {
      }
    }
  }

  /** No image is lost to a key collision: the map has one key per image. */
  lemma {:induction false} ImageMapSize(list: seq<ImageSymbols>, keyOf: ImageSymbols -> string)
    requires UniqueKeys(list, keyOf)
    ensures |ImageMap(list, keyOf)| == |list|
    decreases |list|
  {
    if |list| > 0 {
      LastKeyIsNew(list, keyOf);
      ImageMapSize(list[..|list| - 1], keyOf);
    }
  }
}

=== FILE: common.dfy ===
/** Small shared vocabulary: optional values, error results, order-preserving
    filtering and concatenation of sequences, the C string tests the library
    relies on (strncmp-prefix, strstr, hasSuffix) and two's-complement wrap. */
module Common {

  /** An optional value: Swift's `T?`. */
  datatype Option<+T> = None | Some(value: T) {
    function GetOr(default: T): T {
      match this
      case Some(v) => v
      case None => default
    }
  }

  /** A computation that either yields a value or stops with an error. */
  datatype Result<+T, +E> = Ok(value: T) | Err(error: E)

  /** Unsigned fixed-width integers of the Mach-O structures. */
  type u8 = x: int | 0 <= x < 0x100
  type u16 = x: int | 0 <= x < 0x1_0000
  type u32 = x: int | 0 <= x < 0x1_0000_0000
  type u64 = x: int | 0 <= x < 0x1_0000_0000_0000_0000

  const TwoTo32: int := 0x1_0000_0000
  const TwoTo64: int := 0x1_0000_0000_0000_0000

  /** The value an `intptr_t` holds after an unsigned 64-bit result is stored
      into it: reduction modulo 2^64 read back as two's complement. */
  function Int64(x: int): (r: int)
    ensures -0x8000_0000_0000_0000 <= r < 0x8000_0000_0000_0000
    ensures (x - r) % TwoTo64 == 0
    ensures -0x8000_0000_0000_0000 <= x < 0x8000_0000_0000_0000 ==> r == x
  {
    var m := x % TwoTo64;
    if m >= 0x8000_0000_0000_0000 then m - TwoTo64 else m
  }

  /** `p` is a prefix of `s`: what `strncmp(s, p, strlen(p)) == 0` tests of
      two NUL-free strings. */
  predicate IsPrefix<T(==)>(p: seq<T>, s: seq<T>) {
    |p| <= |s| && s[..|p|] == p
  }

  /** `x` is a suffix of `s`: Swift's `hasSuffix` on plain character sequences. */
  predicate IsSuffix<T(==)>(x: seq<T>, s: seq<T>) {
    |x| <= |s| && s[|s| - |x|..] == x
  }

  /** `needle` occurs somewhere in `s`: what `strstr(s, needle) != nil` tests. */
  predicate Contains<T(==)>(s: seq<T>, needle: seq<T>)
    decreases |s|
  {
    IsPrefix(needle, s) || (|s| > 0 && Contains(s[1..], needle))
  }

  /** `a` is `b` with some elements dropped and the rest kept in order. */
  predicate IsSubsequence<T(==)>(a: seq<T>, b: seq<T>)
    decreases |b|
  {
    if |a| == 0 then true
    else if |b| == 0 then false
    else if a[|a| - 1] == b[|b| - 1] then IsSubsequence(a[..|a| - 1], b[..|b| - 1])
    else IsSubsequence(a, b[..|b| - 1])
  }

  /** Swift's `filter`: the elements of `s` that satisfy `f`, in their order. */
  function Filter<T>(s: seq<T>, f: T -> bool): (r: seq<T>)
    ensures |r| <= |s|
    ensures forall i :: 0 <= i < |r| ==> r[i] in s && f(r[i])
    ensures forall i :: 0 <= i < |s| && f(s[i]) ==> s[i] in r
    ensures IsSubsequence(r, s)
    ensures (forall i :: 0 <= i < |s| ==> f(s[i])) ==> r == s
    decreases |s|
  {
    if |s| == 0 then []
    else
      var init := Filter(s[..|s| - 1], f);
      var last := s[|s| - 1];
      assert s == s[..|s| - 1] + [last];
      if f(last) then init + [last] else init
  }

  /** The first position whose element satisfies `f`, if any. */
  function FirstIndex<T>(s: seq<T>, f: T -> bool): (r: Option<nat>)
    ensures r.Some? ==> r.value < |s| && f(s[r.value]) && forall j :: 0 <= j < r.value ==> !f(s[j])
    ensures r.None? ==> forall j :: 0 <= j < |s| ==> !f(s[j])
    decreases |s|
  {
    if |s| == 0 then None
    else if f(s[0]) then Some(0)
    else
      match FirstIndex(s[1..], f)
      case None => None
      case Some(k) => Some(k + 1)
  }

  /** Swift's `first(where:)`. */
  function First<T>(s: seq<T>, f: T -> bool): Option<T> {
    match FirstIndex(s, f)
    case None => None
    case Some(k) => Some(s[k])
  }

  /** The first match of `a + [x]`: the first match of `a` if there is one,
      otherwise `x` when it matches. */
  lemma FirstAppend<T>(a: seq<T>, x: T, g: T -> bool)
    ensures First(a + [x], g) == (if First(a, g).Some? then First(a, g) else if g(x) then Some(x) else None)
  {
    var s := a + [x];
    assert forall j :: 0 <= j < |a| ==> s[j] == a[j];
    match FirstIndex(a, g)
    case Some(k) =>
      assert FirstIndex(s, g) == Some(k) by {
        var m := FirstIndex(s, g);
        assert m.Some? && m.value <= k;
        assert !(m.value < k);
      }
    case None =>
      var m := FirstIndex(s, g);
      if g(x) {
        assert s[|a|] == x;
        assert m.Some? && m.value == |a|;
      } else {
        assert m.None?;
      }
  }

  /** Filtering by a condition that every match of `g` meets keeps the first
      match of `g`. */
  lemma {:induction false} FirstOfFilter<T>(s: seq<T>, f: T -> bool, g: T -> bool)
    requires forall x :: g(x) ==> f(x)
    ensures First(Filter(s, f), g) == First(s, g)
    decreases |s|
  {
    if |s| > 0 {
      var init, last := s[..|s| - 1], s[|s| - 1];
      assert s == init + [last];
      FirstOfFilter(init, f, g);
      FirstAppend(init, last, g);
      if f(last) {
        FirstAppend(Filter(init, f), last, g);
      }
    }
  }

  /** The numbers 0 ..< n in increasing order. */
  function Range(n: nat): (r: seq<nat>)
    ensures |r| == n
    ensures forall i :: 0 <= i < n ==> r[i] == i
  {
    seq(n, i => i)
  }

  predicate StrictlyIncreasing(ns: seq<int>) {
    forall i, j :: 0 <= i < j < |ns| ==> ns[i] < ns[j]
  }

  /** The text after the last '/', once trailing slashes are removed; a path of
      slashes only gives "/". This is `URL(fileURLWithPath:).lastPathComponent`
      on an absolute, already standardised path. */
  function LastPathComponent(path: string): (r: string)
    ensures var trimmed := TrimTrailingSlashes(path);
      trimmed != "" ==>
        && IsSuffix(r, trimmed) && r != "" && '/' !in r
        && (|r| == |trimmed| || trimmed[|trimmed| - |r| - 1] == '/')
    ensures r == "/" <==> TrimTrailingSlashes(path) == "" && path != ""
    ensures path == "" ==> r == ""
  {
    var trimmed := TrimTrailingSlashes(path);
    if trimmed == "" then (if path == "" then "" else "/") else AfterLastSlash(trimmed)
  }

  function TrimTrailingSlashes(path: string): (r: string)
    ensures IsPrefix(r, path)
    ensures r == "" || r[|r| - 1] != '/'
    ensures forall i :: |r| <= i < |path| ==> path[i] == '/'
    decreases |path|
  {
    if |path| > 0 && path[|path| - 1] == '/' then TrimTrailingSlashes(path[..|path| - 1]) else path
  }

  function AfterLastSlash(path: string): (r: string)
    ensures IsSuffix(r, path)
    ensures '/' !in r
    ensures path != "" && path[|path| - 1] != '/' ==> r != ""
    ensures |r| == |path| || path[|path| - |r| - 1] == '/'
    decreases |path|
  {
    if |path| == 0 || path[|path| - 1] == '/' then ""
    else AfterLastSlash(path[..|path| - 1]) + [path[|path| - 1]]
  }
}

=== FILE: decoder.dfy ===
/** `init_symbol_iterator`: the walk over a Mach-O image's load commands that
    locates the symbol array, the string table, the load-time slide of the
    link-edit data and the export trie, and records the image's segments.

    Addresses are integers; `header` is the address of the `mach_header_64`.
    The iterator state starts zeroed (as Swift's `symbol_iterator()` does), so a
    field the walk never writes reads 0, the null pointer. */
module Decoder {
  import opened Common
  import opened MachO

  datatype MachHeader = MachHeader(magic: u32, ncmds: u32)

  /** An image as the decoder sees it: its header and the load command that
      decodes at each byte offset from the start of the header. */
  datatype MachImage = MachImage(header: MachHeader, commands: map<int, LoadCommand>)

  datatype DecodeError =
    /** The walk stepped to an offset where no load command decodes. */
    | UnreadableCommand(offset: int)
    /** An `LC_SYMTAB` of a loaded image came before its `__TEXT` or
        `__LINKEDIT` segment: the source dereferences a null segment pointer. */
    | MissingSegment(symtabIndex: nat)

  /** The `symbol_iterator` fields the walk fills in. */
  datatype IteratorState = IteratorState(
    header: int,
    nextSymbol: nat,
    symbolCount: nat,
    symbols: int,
    stringsBase: int,
    addressBase: int,
    fileSlide: int,
    segments: seq<SegmentCommand>,
    imageEnd: int,
    exportsTrie: int,
    trieSize: nat)

  function ZeroState(header: int): IteratorState {
    IteratorState(header, 0, 0, 0, 0, 0, 0, [], 0, 0, 0)
  }

  // ---------------------------------------------------------------------------
  // The command walk

  /** The offsets of `n` consecutive commands starting at `at`, each one
      `cmdsize` bytes past the previous. */
  function Walk(commands: map<int, LoadCommand>, at: int, n: nat): (r: Result<seq<int>, DecodeError>)
    ensures r.Ok? ==> |r.value| == n
    ensures r.Ok? ==> forall i :: 0 <= i < n ==> r.value[i] in commands
    ensures r.Ok? && n > 0 ==> r.value[0] == at
    ensures r.Ok? ==> forall i :: 0 <= i < n - 1 ==> r.value[i + 1] == r.value[i] + commands[r.value[i]].cmdsize
    ensures r.Err? ==> r.error.UnreadableCommand? && r.error.offset !in commands
    decreases n
  {
    if n == 0 then Ok([])
    else if at !in commands then Err(UnreadableCommand(at))
    else
      match Walk(commands, at + commands[at].cmdsize, n - 1)
      case Err(e) => Err(e)
      case Ok(rest) => Ok([at] + rest)
  }

  /** Where the walk stands after `k` steps from `at`, counted forwards; `None`
      once a step has left the decodable commands. */
  function StepOffset(commands: map<int, LoadCommand>, at: int, k: nat): Option<int>
    decreases k
  {
    if k == 0 then Some(at)
    else
      match StepOffset(commands, at, k - 1)
      case None => None
      case Some(o) => if o in commands then Some(o + commands[o].cmdsize) else None
  }

  lemma {:induction false} StepOffsetShift(commands: map<int, LoadCommand>, at: int, k: nat)
    requires at in commands
    ensures StepOffset(commands, at, k + 1) == StepOffset(commands, at + commands[at].cmdsize, k)
    decreases k
  {
    if k > 0 {
      StepOffsetShift(commands, at, k - 1);
    }
  }

  /** Step `k` of the walk from `at` lands on a decodable command. */
  predicate Lands(commands: map<int, LoadCommand>, at: int, k: nat) {
    StepOffset(commands, at, k).Some? && StepOffset(commands, at, k).value in commands
  }

  /** The walk succeeds exactly when each of its `n` steps lands on a command,
      and then its `k`-th offset is where counting `k` steps forwards arrives. */
  lemma {:induction false} WalkVisitsSteps(commands: map<int, LoadCommand>, at: int, n: nat)
    ensures Walk(commands, at, n).Ok? <==> forall k :: 0 <= k < n ==> Lands(commands, at, k)
    ensures Walk(commands, at, n).Ok? ==>
      forall k :: 0 <= k < n ==> StepOffset(commands, at, k) == Some(Walk(commands, at, n).value[k])
    decreases n
  {
    assert StepOffset(commands, at, 0) == Some(at);
    if n > 0 && at !in commands {
      assert !Lands(commands, at, 0);
    } else if n > 0 {
      var next := at + commands[at].cmdsize;
      WalkVisitsSteps(commands, next, n - 1);
      forall k | 0 <= k < n - 1
        ensures StepOffset(commands, at, k + 1) == StepOffset(commands, next, k)
        ensures Lands(commands, at, k + 1) == Lands(commands, next, k)
      {
        StepOffsetShift(commands, at, k);
      }
      if forall k :: 0 <= k < n ==> Lands(commands, at, k) {
        assert forall k :: 0 <= k < n - 1 ==> Lands(commands, next, k) by {
          forall k | 0 <= k < n - 1 ensures Lands(commands, next, k) {
            assert Lands(commands, at, k + 1);
          }
        }
        assert Walk(commands, next, n - 1).Ok?;
      }
      if Walk(commands, at, n).Ok? {
        forall k | 0 <= k < n ensures Lands(commands, at, k) {
          if k > 0 {
            assert Lands(commands, next, k - 1);
          }
        }
      }
    }
  }

  /** The load commands `header->ncmds` steps visit, in order. */
  function Commands(image: MachImage): (r: Result<seq<LoadCommand>, DecodeError>)
    ensures r.Ok? <==> Walk(image.commands, MachHeaderSize, image.header.ncmds).Ok?
    ensures r.Ok? ==> |r.value| == image.header.ncmds
    ensures r.Ok? ==> forall i :: 0 <= i < |r.value| ==>
      r.value[i] == image.commands[Walk(image.commands, MachHeaderSize, image.header.ncmds).value[i]]
  {
    match Walk(image.commands, MachHeaderSize, image.header.ncmds)
    case Err(e) => Err(e)
    case Ok(offsets) => Ok(seq(|offsets|, i requires 0 <= i < |offsets| => image.commands[offsets[i]]))
  }

  // ---------------------------------------------------------------------------
  // Reference views of a command list

  /** Every segment command's payload, in command order. */
  function SegmentsOf(cmds: seq<LoadCommand>): seq<SegmentCommand>
    decreases |cmds|
  {
    if |cmds| == 0 then []
    else
      var init := SegmentsOf(cmds[..|cmds| - 1]);
      match cmds[|cmds| - 1]
      case Segment(_, _, seg) => init + [seg]
      case _ => init
  }

  /** The last segment with this name, if any. */
  function LastNamed(cmds: seq<LoadCommand>, name: string): Option<SegmentCommand>
    decreases |cmds|
  {
    if |cmds| == 0 then None
    else
      var c := cmds[|cmds| - 1];
      if c.Segment? && c.segment.segname == name then Some(c.segment)
      else LastNamed(cmds[..|cmds| - 1], name)
  }

  /** The index of the last `LC_SYMTAB`, if any. */
  function LastSymtab(cmds: seq<LoadCommand>): (r: Option<nat>)
    ensures r.Some? ==> r.value < |cmds| && cmds[r.value].Symtab?
    ensures r.Some? ==> forall j :: r.value < j < |cmds| ==> !cmds[j].Symtab?
    ensures r.None? ==> forall j :: 0 <= j < |cmds| ==> !cmds[j].Symtab?
    decreases |cmds|
  {
    if |cmds| == 0 then None
    else if cmds[|cmds| - 1].Symtab? then Some(|cmds| - 1)
    else LastSymtab(cmds[..|cmds| - 1])
  }

  function Take<T>(xs: seq<T>, n: nat): seq<T> {
    if |xs| <= n then xs else xs[..n]
  }

  function VMAddr(seg: Option<SegmentCommand>): u64 {
    if seg.Some? then seg.value.vmaddr else 0
  }

  function FileOff(seg: Option<SegmentCommand>): u64 {
    if seg.Some? then seg.value.fileoff else 0
  }

  /** `file_slide`: zero for a file read from disk; for a loaded image, how far
      the link-edit data sits from where its file offset would put it. */
  function FileSlide(isFile: bool, text: SegmentCommand, linkedit: SegmentCommand): int {
    if isFile then 0 else Int64(linkedit.vmaddr - text.vmaddr - linkedit.fileoff)
  }

  // ---------------------------------------------------------------------------
  // First pass: segments and the symbol table

  /** The walk's local variables (`seg_text`, `seg_linkedit`) beside the state. */
  datatype Scan = Scan(text: Option<SegmentCommand>, linkedit: Option<SegmentCommand>, state: IteratorState)

  function ScanStep(s: Scan, c: LoadCommand, index: nat, isFile: bool, capacity: nat): Result<Scan, DecodeError> {
    match c
    case Segment(_, _, seg) =>
      var st := s.state.(
        imageEnd := s.state.header + seg.fileoff + seg.filesize,
        segments := if |s.state.segments| < capacity then s.state.segments + [seg] else s.state.segments);
      if seg.segname == SEG_TEXT then Ok(s.(text := Some(seg), state := st))
      else if seg.segname == SEG_LINKEDIT then Ok(s.(linkedit := Some(seg), state := st))
      else Ok(s.(state := st))
    case Symtab(_, symoff, nsyms, stroff, _) =>
      if !isFile && (s.text.None? || s.linkedit.None?) then Err(MissingSegment(index))
      else
        var slide := if isFile then 0 else FileSlide(false, s.text.value, s.linkedit.value);
        var header := s.state.header;
        Ok(s.(state := s.state.(
          symbolCount := nsyms,
          fileSlide := slide,
          symbols := header + (symoff + slide),
          stringsBase := header + (stroff + slide),
          addressBase := if s.text.Some? then Int64(header - s.text.value.vmaddr) else s.state.addressBase)))
    case _ => Ok(s)
  }

  /** The first loop of `init_symbol_iterator` over `cmds`, in order. */
  function ScanCommands(cmds: seq<LoadCommand>, isFile: bool, header: int, capacity: nat): Result<Scan, DecodeError>
    decreases |cmds|
  {
    if |cmds| == 0 then Ok(Scan(None, None, ZeroState(header)))
    else
      match ScanCommands(cmds[..|cmds| - 1], isFile, header, capacity)
      case Err(e) => Err(e)
      case Ok(s) => ScanStep(s, cmds[|cmds| - 1], |cmds| - 1, isFile, capacity)
  }

  /** The named segments the first pass keeps are the latest `__TEXT` and
      `__LINKEDIT`; it sets no trie field, and no `address_base` before a
      `__TEXT` segment has been seen. */
  lemma {:induction false} ScanNamed(cmds: seq<LoadCommand>, isFile: bool, header: int, capacity: nat)
    requires ScanCommands(cmds, isFile, header, capacity).Ok?
    ensures var s := ScanCommands(cmds, isFile, header, capacity).value;
      && s.state.header == header
      && s.state.nextSymbol == 0
      && s.text == LastNamed(cmds, SEG_TEXT)
      && s.linkedit == LastNamed(cmds, SEG_LINKEDIT)
      && (s.text.None? ==> s.state.addressBase == 0)
      && s.state.exportsTrie == 0 && s.state.trieSize == 0
    decreases |cmds|
  {
    if |cmds| > 0 {
      ScanNamed(cmds[..|cmds| - 1], isFile, header, capacity);
    }
  }

  /** The first pass records the segments in command order up to the
      capacity and leaves `image_end` at the end of the last segment's file
      range. */
  lemma {:induction false} ScanSegmentList(cmds: seq<LoadCommand>, isFile: bool, header: int, capacity: nat)
    requires ScanCommands(cmds, isFile, header, capacity).Ok?
    ensures var s := ScanCommands(cmds, isFile, header, capacity).value;
      && s.state.header == header
      && s.state.segments == Take(SegmentsOf(cmds), capacity)
      && s.state.imageEnd == (if |SegmentsOf(cmds)| == 0 then 0
                              else var last := SegmentsOf(cmds)[|SegmentsOf(cmds)| - 1];
                                   header + last.fileoff + last.filesize)
    decreases |cmds|
  {
    if |cmds| > 0 {
      var init := cmds[..|cmds| - 1];
      ScanSegmentList(init, isFile, header, capacity);
      var segs := SegmentsOf(init);
      if |segs| > capacity && cmds[|cmds| - 1].Segment? {
        assert Take(segs + [cmds[|cmds| - 1].segment], capacity) == Take(segs, capacity);
      }
    }
  }

  /** After the first pass the symbol fields describe the last `LC_SYMTAB`:
      its count, and its symbol and string offsets moved by `file_slide`
      computed from the segments seen before it; all stay zero without one. */
  lemma {:induction false} ScanSymtab(cmds: seq<LoadCommand>, isFile: bool, header: int, capacity: nat)
    requires ScanCommands(cmds, isFile, header, capacity).Ok?
    ensures var st := ScanCommands(cmds, isFile, header, capacity).value.state;
      match LastSymtab(cmds)
      case None =>
        st.symbolCount == 0 && st.fileSlide == 0 && st.symbols == 0 && st.stringsBase == 0 && st.addressBase == 0
      case Some(k) =>
        var sym := cmds[k];
        var text := LastNamed(cmds[..k], SEG_TEXT);
        var linkedit := LastNamed(cmds[..k], SEG_LINKEDIT);
        && (isFile || (text.Some? && linkedit.Some?))
        && st.symbolCount == sym.nsyms
        && st.fileSlide == (if isFile then 0 else FileSlide(false, text.value, linkedit.value))
        && st.symbols == header + sym.symoff + st.fileSlide
        && st.stringsBase == header + sym.stroff + st.fileSlide
        && st.addressBase == (if text.Some? then Int64(header - text.value.vmaddr) else 0)
    decreases |cmds|
  {
    if |cmds| > 0 {
      var init := cmds[..|cmds| - 1];
      ScanSymtab(init, isFile, header, capacity);
      ScanNamed(init, isFile, header, capacity);
      if !cmds[|cmds| - 1].Symtab? {
        match LastSymtab(init)
        case None =>
        case Some(k) =>
          assert cmds[..k] == init[..k];
      }
    }
  }

  /** Command `k` is an `LC_SYMTAB` with no `__TEXT` or no `__LINKEDIT` before it. */
  predicate MissingBefore(cmds: seq<LoadCommand>, k: nat)
    requires k < |cmds|
  {
    cmds[k].Symtab? && (LastNamed(cmds[..k], SEG_TEXT).None? || LastNamed(cmds[..k], SEG_LINKEDIT).None?)
  }

  /** The first pass fails exactly when a loaded image has an `LC_SYMTAB` with
      no `__TEXT` or no `__LINKEDIT` segment before it. */
  lemma {:induction false} ScanFails(cmds: seq<LoadCommand>, isFile: bool, header: int, capacity: nat)
    ensures ScanCommands(cmds, isFile, header, capacity).Err? <==>
      !isFile && (exists k :: 0 <= k < |cmds| && MissingBefore(cmds, k))
    decreases |cmds|
  {
    if |cmds| > 0 {
      var init := cmds[..|cmds| - 1];
      ScanFails(init, isFile, header, capacity);
      assert forall k :: 0 <= k < |init| ==> MissingBefore(init, k) == MissingBefore(cmds, k) by {
        forall k | 0 <= k < |init| ensures MissingBefore(init, k) == MissingBefore(cmds, k) {
          assert init[..k] == cmds[..k];
        }
      }
      if ScanCommands(init, isFile, header, capacity).Ok? {
        ScanNamed(init, isFile, header, capacity);
        var last := |cmds| - 1;
        assert cmds[..last] == init;
        if ScanCommands(cmds, isFile, header, capacity).Err? {
          assert MissingBefore(cmds, last);
        }
      }
    }
  }

  // ---------------------------------------------------------------------------
  // Second pass: the export trie

  /** The sentinel `~0U` the second pass starts from. */
  const NoOffset: u32 := 0xffff_ffff

  /** The second loop, left to right: each `LC_DYLD_INFO`, `LC_DYLD_INFO_ONLY`
      or `LC_DYLD_EXPORTS_TRIE` overwrites the offset and size. */
  function TrieFold(cmds: seq<LoadCommand>, offset: u32, size: nat): (u32, nat)
    decreases |cmds|
  {
    if |cmds| == 0 then (offset, size)
    else
      match cmds[0]
      case DyldInfo(_, _, off, sz) => TrieFold(cmds[1..], off, sz)
      case ExportsTrie(_, off, sz) => TrieFold(cmds[1..], off, sz)
      case _ => TrieFold(cmds[1..], offset, size)
  }

  predicate IsExportsCommand(c: LoadCommand) {
    c.DyldInfo? || c.ExportsTrie?
  }

  function ExportOffset(c: LoadCommand): u32
    requires IsExportsCommand(c)
  {
    if c.DyldInfo? then c.exportOff else c.dataoff
  }

  function ExportSize(c: LoadCommand): u32
    requires IsExportsCommand(c)
  {
    if c.DyldInfo? then c.exportSize else c.datasize
  }

  /** The last export-trie command, searched from the end. */
  function LastExports(cmds: seq<LoadCommand>): (r: Option<LoadCommand>)
    ensures r.Some? ==> IsExportsCommand(r.value) && r.value in cmds
    ensures r.None? <==> forall i :: 0 <= i < |cmds| ==> !IsExportsCommand(cmds[i])
    decreases |cmds|
  {
    if |cmds| == 0 then None
    else if IsExportsCommand(cmds[|cmds| - 1]) then Some(cmds[|cmds| - 1])
    else LastExports(cmds[..|cmds| - 1])
  }

  /** The last export command wins, for the offset and the size alike. */
  lemma {:induction false} TrieFoldLastWins(cmds: seq<LoadCommand>, offset: u32, size: nat)
    ensures TrieFold(cmds, offset, size) ==
      match LastExports(cmds)
      case None => (offset, size)
      case Some(c) => (ExportOffset(c), ExportSize(c))
    decreases |cmds|
  {
    if |cmds| > 0 {
      var rest := cmds[1..];
      match cmds[0]
      case DyldInfo(_, _, off, sz) => TrieFoldLastWins(rest, off, sz); LastExportsSplit(cmds);
      case ExportsTrie(_, off, sz) => TrieFoldLastWins(rest, off, sz); LastExportsSplit(cmds);
      case _ => TrieFoldLastWins(rest, offset, size); LastExportsSplit(cmds);
    }
  }

  lemma {:induction false} LastExportsSplit(cmds: seq<LoadCommand>)
    requires |cmds| > 0
    ensures LastExports(cmds) ==
      if LastExports(cmds[1..]).Some? then LastExports(cmds[1..])
      else if IsExportsCommand(cmds[0]) then Some(cmds[0]) else None
    decreases |cmds|
  {
    if |cmds| > 1 {
      var init := cmds[..|cmds| - 1];
      assert init[1..] == cmds[1..][..|cmds[1..]| - 1];
      assert cmds[1..][|cmds[1..]| - 1] == cmds[|cmds| - 1];
      LastExportsSplit(init);
    }
  }

  /** The trie's offset from the header: the file offset for a file, else the
      file offset rebased into the loaded link-edit segment, truncated to 32 bits. */
  function TrieOffset(isFile: bool, fileOffset: u32, text: Option<SegmentCommand>, linkedit: Option<SegmentCommand>): u32 {
    (if isFile then fileOffset
     else (fileOffset - FileOff(linkedit)) + (VMAddr(linkedit) - VMAddr(text))) % TwoTo32
  }

  // ---------------------------------------------------------------------------
  // The whole decoder

  /** `init_symbol_iterator(header, state, isFile)`, where `capacity` is the
      length of the state's `segments` array. */
  function InitSymbolIterator(image: MachImage, header: int, isFile: bool, capacity: nat): (r: Result<IteratorState, DecodeError>)
    ensures r.Ok? <==> Commands(image).Ok? && ScanCommands(Commands(image).value, isFile, header, capacity).Ok?
    ensures r.Ok? ==>
      var cmds := Commands(image).value;
      var scanned := ScanCommands(cmds, isFile, header, capacity).value;
      && r.value == scanned.state.(exportsTrie := r.value.exportsTrie, trieSize := r.value.trieSize)
      && match LastExports(cmds)
         case None => r.value.exportsTrie == 0 && r.value.trieSize == 0
         case Some(c) =>
           && r.value.trieSize == ExportSize(c)
           && r.value.exportsTrie == (if ExportOffset(c) == NoOffset then 0
                                      else header + TrieOffset(isFile, ExportOffset(c), scanned.text, scanned.linkedit))
  {
    match Commands(image)
    case Err(e) => Err(e)
    case Ok(cmds) =>
      match ScanCommands(cmds, isFile, header, capacity)
      case Err(e) => Err(e)
      case Ok(s) =>
        ScanNamed(cmds, isFile, header, capacity);
        ScanSegmentList(cmds, isFile, header, capacity);
        TrieFoldLastWins(cmds, NoOffset, s.state.trieSize);
        var (fileOffset, size) := TrieFold(cmds, NoOffset, s.state.trieSize);
        var st := s.state.(trieSize := size);
        if fileOffset != NoOffset then
          Ok(st.(exportsTrie := header + TrieOffset(isFile, fileOffset, s.text, s.linkedit)))
        else Ok(st)
  }
}

=== FILE: interposing.dfy ===
/** Rebinding ("interposing") symbols through fishhook, and the reverse
    address lookup. A rebinding pairs a symbol name with a replacement; before
    each image is processed every rebinding's `replaced` slot is armed with a
    sentinel, its own address; the rewrite primitive stores the image's
    previous pointer into the slot of each rebinding it applied; afterwards a
    slot that no longer holds its sentinel marks its name as replaced in that
    image. */
module Interposing {
  import opened Common
  import opened Catalogue

  /** The name and replacement of one fishhook `struct rebinding`. */
  datatype Binding = Binding(name: string, replacement: int)

  /** A line the library logs. */
  datatype Message =
    /** "Unable to find replacement for symbol" */
    | Unresolved(symbol: string)
    /** "missing replacement at index ..." */
    | MissingReplacement(index: nat, symbol: string)
    /** "No symbols replaced, have you added -Xlinker -interposable ..." */
    | NothingReplaced

  // ---------------------------------------------------------------------------
  // Building the rebindings

  /** Index `i` of the names has a replacement value. */
  predicate HasReplacement(values: seq<Option<int>>, i: nat) {
    i < |values| && values[i].Some?
  }

  /** The rebindings, the name indices they were built from, and the log
      lines for the indices that were dropped. */
  datatype Prepared = Prepared(bindings: seq<Binding>, sources: seq<nat>, missing: seq<Message>)

  /** `(0..<count).compactMap { ... }` over the first `count` names: one
      rebinding per index that has a replacement value, in index order; every
      other index is logged and dropped. */
  function PrepareUpTo(names: seq<string>, values: seq<Option<int>>, count: nat): Prepared
    requires count <= |names|
  {
    if count == 0 then Prepared([], [], [])
    else
      var p := PrepareUpTo(names, values, count - 1);
      var i := count - 1;
      if HasReplacement(values, i) then Prepared(p.bindings + [Binding(names[i], values[i].value)], p.sources + [i], p.missing)
      else Prepared(p.bindings, p.sources, p.missing + [MissingReplacement(i, names[i])])
  }

  function Prepare(names: seq<string>, values: seq<Option<int>>): Prepared {
    PrepareUpTo(names, values, |names|)
  }

  /** The rebindings are built from exactly the indices with a replacement, in
      increasing index order, each pairing that index's name and value. */
  lemma {:induction false} PrepareSources(names: seq<string>, values: seq<Option<int>>, count: nat)
    requires count <= |names|
    ensures var p := PrepareUpTo(names, values, count);
      && |p.bindings| == |p.sources|
      && StrictlyIncreasing(p.sources)
      && (forall k :: 0 <= k < |p.sources| ==>
            && p.sources[k] < count && HasReplacement(values, p.sources[k])
            && p.bindings[k] == Binding(names[p.sources[k]], values[p.sources[k]].value))
      && (forall i: nat :: i in p.sources <==> i < count && HasReplacement(values, i))
  {
    if count > 0 {
      PrepareSources(names, values, count - 1);
    }
  }

  /** Exactly the indices without a replacement are logged as missing. */
  lemma {:induction false} PrepareMissing(names: seq<string>, values: seq<Option<int>>, count: nat)
    requires count <= |names|
    ensures var p := PrepareUpTo(names, values, count);
      && (forall i :: 0 <= i < count ==> (MissingReplacement(i, names[i]) in p.missing <==> !HasReplacement(values, i)))
      && (forall m :: m in p.missing ==> m.MissingReplacement? && m.index < count)
  {
    if count > 0 {
      PrepareMissing(names, values, count - 1);
    }
  }

  // ---------------------------------------------------------------------------
  // Poison and check

  /** The address of rebinding `i`'s `replaced` field in an array of 24-byte
      `struct rebinding`s at `base`: the sentinel the slot is armed with. */
  function Sentinel(base: int, i: int): int {
    base + 24 * i + 16
  }

  /** `rebind_symbols_image` on one image: for the rebindings it applies, the
      value it stores into their slots (the image's previous pointer). */
  type Hook = (nat, seq<Binding>) -> map<nat, int>

  /** Slot `i` differs from its sentinel once the primitive has run. */
  predicate Changed(writes: map<nat, int>, base: nat, i: nat) {
    i in writes && writes[i] != Sentinel(base, i)
  }

  /** The names one image contributes: those of the first `count` rebindings
      whose slot changed, in rebinding order. */
  function MatchedNames(bindings: seq<Binding>, writes: map<nat, int>, base: nat, count: nat): seq<string>
    requires count <= |bindings|
  {
    if count == 0 then []
    else
      var init := MatchedNames(bindings, writes, base, count - 1);
      if Changed(writes, base, count - 1) then init + [bindings[count - 1].name] else init
  }

  /** The result of rebinding across images: each image's matched names, image
      after image. A name appears once per image in which it was replaced. */
  function Replaced(images: seq<nat>, bindings: seq<Binding>, base: nat, hook: Hook): seq<string>
    decreases |images|
  {
    if |images| == 0 then []
    else
      var init := Replaced(images[..|images| - 1], bindings, base, hook);
      init + MatchedNames(bindings, hook(images[|images| - 1], bindings), base, |bindings|)
  }

  /** The slots after the primitive ran on slots that were all armed. */
  function AfterHook(base: nat, count: nat, writes: map<nat, int>): (slots: seq<int>)
    ensures |slots| == count
    ensures forall i :: 0 <= i < count ==> (slots[i] != Sentinel(base, i) <==> Changed(writes, base, i))
  {
    seq(count, i => if i in writes then writes[i] else Sentinel(base, i))
  }

  /** `rebind(rebindings:)`: for each image, re-arm every slot, run the
      primitive, then collect the names of the slots that changed. */
  method Rebind(images: seq<nat>, bindings: seq<Binding>, base: nat, hook: Hook) returns (replaced: seq<string>)
    ensures replaced == Replaced(images, bindings, base, hook)
  {
    var slots: seq<int> := seq(|bindings|, _ => 0);
    replaced := [];
    for n := 0 to |images|
      invariant |slots| == |bindings|
      invariant replaced == Replaced(images[..n], bindings, base, hook)
    {
      for i := 0 to |slots|
        invariant |slots| == |bindings|
        invariant forall j :: 0 <= j < i ==> slots[j] == Sentinel(base, j)
      {
        slots := slots[i := Sentinel(base, i)];
      }
      var writes := hook(images[n], bindings);
      slots := seq(|slots|, i requires 0 <= i < |slots| => if i in writes then writes[i] else slots[i]);
      assert slots == AfterHook(base, |bindings|, writes);
      var found := [];
      for i := 0 to |slots|
        invariant found == MatchedNames(bindings, writes, base, i)
      {
        if slots[i] != Sentinel(base, i) {
          found := found + [bindings[i].name];
        }
      }
      assert images[..n + 1][..n] == images[..n];
      replaced := replaced + found;
    }
    assert images[..|images|] == images;
  }

  lemma {:induction false} MatchedNamesSpec(bindings: seq<Binding>, writes: map<nat, int>, base: nat, count: nat)
    requires count <= |bindings|
    ensures |MatchedNames(bindings, writes, base, count)| <= count
    ensures forall x :: x in MatchedNames(bindings, writes, base, count) <==>
      exists i :: 0 <= i < count && Changed(writes, base, i) && bindings[i].name == x
  {
    if count > 0 {
      MatchedNamesSpec(bindings, writes, base, count - 1);
    }
  }

  /** Every replaced name is the name of a rebinding that changed its slot in
      some image, and every such name is reported; the result is at most one
      name per image and rebinding. */
  lemma {:induction false} ReplacedSpec(images: seq<nat>, bindings: seq<Binding>, base: nat, hook: Hook)
    ensures |Replaced(images, bindings, base, hook)| <= |images| * |bindings|
    ensures forall x :: x in Replaced(images, bindings, base, hook) <==>
      exists k, i :: 0 <= k < |images| && 0 <= i < |bindings| &&
        Changed(hook(images[k], bindings), base, i) && bindings[i].name == x
    decreases |images|
  {
    if |images| > 0 {
      var init := images[..|images| - 1];
      var last := images[|images| - 1];
      ReplacedSpec(init, bindings, base, hook);
      MatchedNamesSpec(bindings, hook(last, bindings), base, |bindings|);
      assert forall k :: 0 <= k < |init| ==> init[k] == images[k];
      assert |images| * |bindings| == |init| * |bindings| + |bindings|;
    }
  }

  lemma {:induction false} NoneMatched(bindings: seq<Binding>, writes: map<nat, int>, base: nat, count: nat)
    requires count <= |bindings|
    requires forall i :: 0 <= i < count ==> !Changed(writes, base, i)
    ensures MatchedNames(bindings, writes, base, count) == []
  {
    if count > 0 {
      NoneMatched(bindings, writes, base, count - 1);
    }
  }

  /** If the primitive never changes a slot, nothing is replaced. */
  lemma {:induction false} NothingChangedNothingReplaced(images: seq<nat>, bindings: seq<Binding>, base: nat, hook: Hook)
    requires forall k, i :: 0 <= k < |images| && 0 <= i < |bindings| ==> !Changed(hook(images[k], bindings), base, i)
    ensures Replaced(images, bindings, base, hook) == []
    decreases |images|
  {
    if |images| > 0 {
      var init := images[..|images| - 1];
      assert forall k :: 0 <= k < |init| ==> init[k] == images[k];
      NothingChangedNothingReplaced(init, bindings, base, hook);
      NoneMatched(bindings, hook(images[|images| - 1], bindings), base, |bindings|);
    }
  }

  /** Names are collected per image: a rebinding applied in two images is
      reported twice. */
  lemma ReplacedKeepsDuplicates(a: nat, b: nat, name: string, replacement: int, base: nat, hook: Hook)
    requires Changed(hook(a, [Binding(name, replacement)]), base, 0)
    requires Changed(hook(b, [Binding(name, replacement)]), base, 0)
    ensures Replaced([a, b], [Binding(name, replacement)], base, hook) == [name, name]
  {
    var bs := [Binding(name, replacement)];
    assert [a, b][..1] == [a] && [a][..0] == [];
    assert MatchedNames(bs, hook(a, bs), base, 1) == [name];
    assert MatchedNames(bs, hook(b, bs), base, 1) == [name];
    assert Replaced([a], bs, base, hook) == [name];
    assert Replaced([a, b], bs, base, hook) == Replaced([a], bs, base, hook) + [name];
  }

  // ---------------------------------------------------------------------------
  // The overloads

  /** What a rebind call returns and what it logs, in order. */
  datatype Outcome = Outcome(replaced: seq<string>, log: seq<Message>)

  /** `rebind(names:values:warn:)`, with the images of `imageNumbers` and the
      rebindings array at address `base`. */
  function RebindNames(names: seq<string>, values: seq<Option<int>>, warn: bool,
                       images: seq<nat>, base: nat, hook: Hook): Outcome
  {
    var p := Prepare(names, values);
    var replaced := Replaced(images, p.bindings, base, hook);
    Outcome(replaced, p.missing + if warn && replaced == [] && |names| != 0 then [NothingReplaced] else [])
  }

  /** Each index without a replacement is logged, and the reminder is logged
      exactly when warning was asked for, nothing was replaced and some name
      was given. */
  lemma RebindNamesLog(names: seq<string>, values: seq<Option<int>>, warn: bool,
                       images: seq<nat>, base: nat, hook: Hook)
    ensures var o := RebindNames(names, values, warn, images, base, hook);
      && (forall i :: 0 <= i < |names| ==> (MissingReplacement(i, names[i]) in o.log <==> !HasReplacement(values, i)))
      && (NothingReplaced in o.log <==> warn && o.replaced == [] && |names| != 0)
  {
    PrepareMissing(names, values, |names|);
  }

  /** What a rebind call replaces: only names that were given with a
      replacement, and at most one per image and kept rebinding. */
  lemma RebindNamesReplaced(names: seq<string>, values: seq<Option<int>>, warn: bool,
                            images: seq<nat>, base: nat, hook: Hook)
    ensures var o := RebindNames(names, values, warn, images, base, hook);
      && |o.replaced| <= |images| * |Prepare(names, values).bindings|
      && forall x :: x in o.replaced ==> exists i :: 0 <= i < |names| && HasReplacement(values, i) && names[i] == x
  {
    var p := Prepare(names, values);
    PrepareSources(names, values, |names|);
    ReplacedSpec(images, p.bindings, base, hook);
    forall x | x in Replaced(images, p.bindings, base, hook)
      ensures exists i :: 0 <= i < |names| && HasReplacement(values, i) && names[i] == x
    {
      var k, j :| 0 <= k < |images| && 0 <= j < |p.bindings| && Changed(hook(images[k], p.bindings), base, j) && p.bindings[j].name == x;
      assert names[p.sources[j]] == x;
    }
  }

  /** `dlsym(scope, name)` */
  type Lookup = (int, string) -> Option<int>

  /** `DLKit.RTLD_DEFAULT`, the bit pattern -2. */
  const RtldDefault: int := -2

  /** `values.map { dlsym(scope, $0) }`: each replacement name looked up. */
  function Resolve(valueNames: seq<string>, scope: int, dlsym: Lookup): (r: seq<Option<int>>)
    ensures |r| == |valueNames|
    ensures forall j :: 0 <= j < |r| ==> r[j] == dlsym(scope, valueNames[j])
    decreases |valueNames|
  {
    if |valueNames| == 0 then []
    else
      var init := Resolve(valueNames[..|valueNames| - 1], scope, dlsym);
      init + [dlsym(scope, valueNames[|valueNames| - 1])]
  }

  /** The messages for replacement names that do not resolve, in order. */
  function UnresolvedMessages(valueNames: seq<string>, scope: int, dlsym: Lookup): (ms: seq<Message>)
    ensures forall x :: Unresolved(x) in ms <==> exists j :: 0 <= j < |valueNames| && valueNames[j] == x && dlsym(scope, x).None?
    ensures forall m :: m in ms ==> m.Unresolved?
    decreases |valueNames|
  {
    if |valueNames| == 0 then []
    else
      var init := UnresolvedMessages(valueNames[..|valueNames| - 1], scope, dlsym);
      var v := valueNames[|valueNames| - 1];
      assert forall j :: 0 <= j < |valueNames| - 1 ==> valueNames[..|valueNames| - 1][j] == valueNames[j];
      init + if dlsym(scope, v).None? then [Unresolved(v)] else []
  }

  /** `rebind(symbols:values:scope:warn:)` with `String` values. */
  function RebindSymbols(symbols: seq<string>, valueNames: seq<string>, scope: int, dlsym: Lookup, warn: bool,
                         images: seq<nat>, base: nat, hook: Hook): Outcome
  {
    var o := RebindNames(symbols, Resolve(valueNames, scope, dlsym), warn, images, base, hook);
    Outcome(o.replaced, UnresolvedMessages(valueNames, scope, dlsym) + o.log)
  }

  /** A replacement name that does not resolve is logged and its symbol is
      dropped (so it is reported only if another index carries the same
      symbol), and the call goes on; a resolved one is not dropped. */
  lemma RebindSymbolsSpec(symbols: seq<string>, valueNames: seq<string>, scope: int, dlsym: Lookup, warn: bool,
                          images: seq<nat>, base: nat, hook: Hook)
    ensures var o := RebindSymbols(symbols, valueNames, scope, dlsym, warn, images, base, hook);
      forall i :: 0 <= i < |symbols| && i < |valueNames| ==>
        && (dlsym(scope, valueNames[i]).None? ==>
              && Unresolved(valueNames[i]) in o.log
              && MissingReplacement(i, symbols[i]) in o.log
              && forall x :: x in o.replaced ==> exists j :: 0 <= j < |symbols| && j != i && symbols[j] == x)
        && (dlsym(scope, valueNames[i]).Some? ==> MissingReplacement(i, symbols[i]) !in o.log)
  {
    var values := Resolve(valueNames, scope, dlsym);
    RebindNamesLog(symbols, values, warn, images, base, hook);
    RebindNamesReplaced(symbols, values, warn, images, base, hook);
  }

  function Keys(pairs: seq<(string, string)>): (r: seq<string>)
    ensures |r| == |pairs| && forall k :: 0 <= k < |r| ==> r[k] == pairs[k].0
  {
    if |pairs| == 0 then [] else Keys(pairs[..|pairs| - 1]) + [pairs[|pairs| - 1].0]
  }

  function Values(pairs: seq<(string, string)>): (r: seq<string>)
    ensures |r| == |pairs| && forall k :: 0 <= k < |r| ==> r[k] == pairs[k].1
  {
    if |pairs| == 0 then [] else Values(pairs[..|pairs| - 1]) + [pairs[|pairs| - 1].1]
  }

  /** `rebind(mapping:scope:warn:)`: `Array(mapping.keys)` and
      `Array(mapping.values)`, both in the dictionary's one enumeration order
      (given here as the sequence of its pairs). */
  function RebindMapping(pairs: seq<(string, string)>, scope: int, dlsym: Lookup, warn: bool,
                         images: seq<nat>, base: nat, hook: Hook): Outcome {
    RebindSymbols(Keys(pairs), Values(pairs), scope, dlsym, warn, images, base, hook)
  }

  /** Every key of the mapping is bound to the replacement its own value
      resolves to, and every rebinding comes from one pair. */
  lemma MappingKeepsPairs(pairs: seq<(string, string)>, scope: int, dlsym: Lookup)
    ensures var bs := Prepare(Keys(pairs), Resolve(Values(pairs), scope, dlsym)).bindings;
      && (forall k :: 0 <= k < |pairs| && dlsym(scope, pairs[k].1).Some? ==>
            Binding(pairs[k].0, dlsym(scope, pairs[k].1).value) in bs)
      && (forall b :: b in bs ==> exists k :: 0 <= k < |pairs| && dlsym(scope, pairs[k].1).Some? && b == Binding(pairs[k].0, dlsym(scope, pairs[k].1).value))
  {
    var values := Resolve(Values(pairs), scope, dlsym);
    var p := Prepare(Keys(pairs), values);
    PrepareSources(Keys(pairs), values, |pairs|);
    forall k | 0 <= k < |pairs| && dlsym(scope, pairs[k].1).Some?
      ensures Binding(pairs[k].0, dlsym(scope, pairs[k].1).value) in p.bindings
    {
      assert HasReplacement(values, k);
      var j :| 0 <= j < |p.sources| && p.sources[j] == k;
      assert p.bindings[j] == Binding(pairs[k].0, dlsym(scope, pairs[k].1).value);
    }
    forall b | b in p.bindings
      ensures exists k :: 0 <= k < |pairs| && dlsym(scope, pairs[k].1).Some? && b == Binding(pairs[k].0, dlsym(scope, pairs[k].1).value)
    {
      var j :| 0 <= j < |p.bindings| && p.bindings[j] == b;
      assert b == Binding(pairs[p.sources[j]].0, dlsym(scope, pairs[p.sources[j]].1).value);
    }
  }

  // ---------------------------------------------------------------------------
  // The subscript setters

  /** `self[name] = value`: a one-element `self[names] = values`. */
  function SetName(name: string, value: Option<int>, images: seq<nat>, base: nat, hook: Hook): Outcome {
    SetNames([name], [value], images, base, hook)
  }

  /** `self[names] = values` and `self[symbols] = values` (pointer values):
      `rebind(names:values:warn: true)`. */
  function SetNames(names: seq<string>, values: seq<Option<int>>, images: seq<nat>, base: nat, hook: Hook): Outcome {
    RebindNames(names, values, true, images, base, hook)
  }

  /** `self[symbols] = valueNames` (names looked up in the default scope). */
  function SetSymbolNames(symbols: seq<string>, valueNames: seq<string>, dlsym: Lookup,
                          images: seq<nat>, base: nat, hook: Hook): Outcome {
    RebindSymbols(symbols, valueNames, RtldDefault, dlsym, true, images, base, hook)
  }

  /** The setters always warn when a non-empty assignment replaced nothing;
      assigning nil to one name logs the missing replacement and the warning
      and replaces nothing. */
  lemma SettersWarn(name: string, value: Option<int>, names: seq<string>, values: seq<Option<int>>,
                    images: seq<nat>, base: nat, hook: Hook)
    ensures var o := SetNames(names, values, images, base, hook);
      NothingReplaced in o.log <==> o.replaced == [] && |names| != 0
    ensures var o := SetName(name, value, images, base, hook);
      && (NothingReplaced in o.log <==> o.replaced == [])
      && (value.None? ==> o == Outcome([], [MissingReplacement(0, name), NothingReplaced]))
  {
    RebindNamesLog(names, values, true, images, base, hook);
    RebindNamesLog([name], [value], true, images, base, hook);
    if value.None? {
      var p := Prepare([name], [value]);
      assert p == Prepared([], [], [MissingReplacement(0, name)]) by {
        assert PrepareUpTo([name], [value], 0) == Prepared([], [], []);
      }
      ReplacedSpec(images, p.bindings, base, hook);
    }
  }

  /** The name-lookup setter warns too, exactly when a non-empty assignment
      replaced nothing. */
  lemma SymbolSetterWarns(symbols: seq<string>, valueNames: seq<string>, dlsym: Lookup,
                          images: seq<nat>, base: nat, hook: Hook)
    ensures var o := SetSymbolNames(symbols, valueNames, dlsym, images, base, hook);
      NothingReplaced in o.log <==> o.replaced == [] && |symbols| != 0
  {
    RebindNamesLog(symbols, Resolve(valueNames, RtldDefault, dlsym), true, images, base, hook);
  }

  // ---------------------------------------------------------------------------
  // Reverse lookup

  /** The `Dl_info` fields the library reads: image path, symbol name and
      symbol address, each as an address. */
  datatype DlInfo = DlInfo(fname: int, sname: int, saddr: int)

  /** `DLKInfo`: the lookup result and the image it was asked of. */
  datatype DLKInfo = DLKInfo(info: DlInfo, owner: ImageSymbols)

  /** `getInfo(address:)`: the loader's `dladdr`, falling back to the export
      trie's `trie_dladdr`. */
  function GetInfo(owner: ImageSymbols, address: int, dladdr: int -> Option<DlInfo>, trieDladdr: int -> Option<DlInfo>): (r: Option<DLKInfo>)
    ensures r.None? <==> dladdr(address).None? && trieDladdr(address).None?
    ensures r.Some? ==> r.value.owner == owner
    ensures dladdr(address).Some? ==> r == Some(DLKInfo(dladdr(address).value, owner))
    ensures dladdr(address).None? && trieDladdr(address).Some? ==> r == Some(DLKInfo(trieDladdr(address).value, owner))
  {
    if dladdr(address).Some? then Some(DLKInfo(dladdr(address).value, owner))
    else if trieDladdr(address).Some? then Some(DLKInfo(trieDladdr(address).value, owner))
    else None
  }

  /** The image path reported is the very string the loader holds for image `n`. */
  predicate SamePointer(info: DlInfo, loader: Loader, n: nat) {
    info.fname == loader.namePtr(n)
  }

  /** The image path reported compares equal (`strcmp`) to image `n`'s path. */
  predicate SamePath(info: DlInfo, loader: Loader, n: nat) {
    loader.cstr(info.fname) == ImagePath(loader, n)
  }

  /** The position in `numbers` of the image `DLKInfo.image` picks: the first
      with an identical path pointer, failing that the first with an equal path. */
  function MatchingImage(info: DlInfo, numbers: seq<nat>, loader: Loader): (r: Option<nat>)
    ensures r.Some? ==> r.value < |numbers|
    ensures (exists k :: 0 <= k < |numbers| && SamePointer(info, loader, numbers[k])) ==>
      && r.Some? && SamePointer(info, loader, numbers[r.value])
      && forall j :: 0 <= j < r.value ==> !SamePointer(info, loader, numbers[j])
    ensures (forall k :: 0 <= k < |numbers| ==> !SamePointer(info, loader, numbers[k])) ==>
      && (r.None? <==> forall k :: 0 <= k < |numbers| ==> !SamePath(info, loader, numbers[k]))
      && (r.Some? ==> SamePath(info, loader, numbers[r.value]))
      && (r.Some? ==> forall j :: 0 <= j < r.value ==> !SamePath(info, loader, numbers[j]))
  {
    match FirstIndex(numbers, n => SamePointer(info, loader, n))
    case Some(k) => Some(k)
    case None => FirstIndex(numbers, n => SamePath(info, loader, n))
  }

  /** `DLKInfo.image`: the matched image as a plain image under the default mask. */
  function InfoImage(i: DLKInfo, loader: Loader): Option<ImageSymbols> {
    var numbers := ImageNumbers(i.owner, loader);
    match MatchingImage(i.info, numbers, loader)
    case None => None
    case Some(k) => Some(Single(numbers[k], DefaultMask))
  }
}

=== FILE: legacy.dfy ===
/** The older snapshot of the library, kept for contrast: its subscript
    setter counts slot changes instead of collecting names and warns whenever
    the count is zero; its iterator applies no filter and reports names
    without skipping the leading `_` of each symbol name; its reverse lookup takes
    the first image whose path matches in either way. */
module Legacy {
  import opened Common
  import opened MachO
  import opened Symbols
  import opened Catalogue
  import opened Interposing

  // ---------------------------------------------------------------------------
  // The counting setter

  /** One rebinding per name, a nil value binding the null pointer. Where
      every value is present these are the newer code's rebindings; a nil
      value, which the newer code drops, still yields a rebinding here. */
  function LegacyBindings(names: seq<string>, values: seq<Option<int>>): (bs: seq<Binding>)
    requires |names| <= |values|
    ensures |bs| == |names|
    ensures (forall i :: 0 <= i < |names| ==> values[i].Some?) ==> bs == Prepare(names, values).bindings
    ensures (exists i :: 0 <= i < |names| && values[i].None?) ==> |Prepare(names, values).bindings| < |bs|
    ensures forall i :: 0 <= i < |names| && values[i].None? ==> bs[i] == Binding(names[i], 0)
  {
    var bs := seq(|names|, i requires 0 <= i < |names| => Binding(names[i], values[i].GetOr(0)));
    PrepareSplits(names, values, |names|);
    PrepareMissing(names, values, |names|);
    if forall i :: 0 <= i < |names| ==> values[i].Some? then
      AllPresentKeepsAll(names, values, |names|);
      bs
    else
      var i :| 0 <= i < |names| && values[i].None?;
      assert MissingReplacement(i, names[i]) in Prepare(names, values).missing;
      bs
  }

  /** The newer code keeps every index either as a rebinding or as a logged
      missing replacement, never both. */
  lemma {:induction false} PrepareSplits(names: seq<string>, values: seq<Option<int>>, count: nat)
    requires count <= |names|
    ensures |PrepareUpTo(names, values, count).bindings| + |PrepareUpTo(names, values, count).missing| == count
  {
    if count > 0 {
      PrepareSplits(names, values, count - 1);
    }
  }

  /** How many of the first `count` slots changed in one image. */
  function ChangedCount(writes: map<nat, int>, base: nat, count: nat): nat {
    if count == 0 then 0
    else ChangedCount(writes, base, count - 1) + if Changed(writes, base, count - 1) then 1 else 0
  }

  /** The running total over the images. */
  function ChangeTotal(images: seq<nat>, bindings: seq<Binding>, base: nat, hook: Hook): nat
    decreases |images|
  {
    if |images| == 0 then 0
    else
      var init := ChangeTotal(images[..|images| - 1], bindings, base, hook);
      init + ChangedCount(hook(images[|images| - 1], bindings), base, |bindings|)
  }

  /** The count and whether the reminder is logged. */
  datatype LegacyOutcome = LegacyOutcome(replaced: nat, warned: bool)

  /** The older `self[names] = newValue`: `newValue[i]` is read for every name
      index, so the values must be at least as many as the names. */
  function LegacySet(names: seq<string>, values: seq<Option<int>>, images: seq<nat>, base: nat, hook: Hook): (o: LegacyOutcome)
    requires |names| <= |values|
    ensures o.replaced == |Replaced(images, LegacyBindings(names, values), base, hook)|
    ensures o.warned <==> forall k, i :: 0 <= k < |images| && 0 <= i < |names| ==>
      !Changed(hook(images[k], LegacyBindings(names, values)), base, i)
  {
    var bindings := LegacyBindings(names, values);
    var total := ChangeTotal(images, bindings, base, hook);
    LegacyCountsReplaced(images, bindings, base, hook);
    NoneReplacedNoneChanged(images, bindings, base, hook);
    LegacyOutcome(total, total == 0)
  }

  /** Nothing is reported replaced iff no slot changed in any image. */
  lemma NoneReplacedNoneChanged(images: seq<nat>, bindings: seq<Binding>, base: nat, hook: Hook)
    ensures Replaced(images, bindings, base, hook) == [] <==>
      forall k, i :: 0 <= k < |images| && 0 <= i < |bindings| ==> !Changed(hook(images[k], bindings), base, i)
  {
    var r := Replaced(images, bindings, base, hook);
    ReplacedSpec(images, bindings, base, hook);
    if r != [] {
      assert r[0] in r;
      var k, i :| 0 <= k < |images| && 0 <= i < |bindings| && Changed(hook(images[k], bindings), base, i) && bindings[i].name == r[0];
      assert !(forall k, i :: 0 <= k < |images| && 0 <= i < |bindings| ==> !Changed(hook(images[k], bindings), base, i));
    } else {
      forall k, i | 0 <= k < |images| && 0 <= i < |bindings|
        ensures !Changed(hook(images[k], bindings), base, i)
      {
        assert Changed(hook(images[k], bindings), base, i) ==> bindings[i].name in r;
      }
    }
  }

  lemma {:induction false} ChangedCountIsMatched(bindings: seq<Binding>, writes: map<nat, int>, base: nat, count: nat)
    requires count <= |bindings|
    ensures ChangedCount(writes, base, count) == |MatchedNames(bindings, writes, base, count)|
  {
    if count > 0 {
      ChangedCountIsMatched(bindings, writes, base, count - 1);
    }
  }

  /** The older setter's count is the length of the newer result for the same
      rebindings: both see one event per image and changed slot. */
  lemma {:induction false} LegacyCountsReplaced(images: seq<nat>, bindings: seq<Binding>, base: nat, hook: Hook)
    ensures ChangeTotal(images, bindings, base, hook) == |Replaced(images, bindings, base, hook)|
    decreases |images|
  {
    if |images| > 0 {
      LegacyCountsReplaced(images[..|images| - 1], bindings, base, hook);
      ChangedCountIsMatched(bindings, hook(images[|images| - 1], bindings), base, |bindings|);
    }
  }

  /** An empty assignment makes the older setter warn; the newer one stays quiet. */
  lemma EmptyBatchWarnsOnlyInLegacy(images: seq<nat>, base: nat, hook: Hook)
    ensures LegacySet([], [], images, base, hook).warned
    ensures NothingReplaced !in SetNames([], [], images, base, hook).log
  {
    LegacyCountsReplaced(images, [], base, hook);
    ReplacedSpec(images, [], base, hook);
    RebindNamesLog([], [], true, images, base, hook);
  }

  lemma {:induction false} AllPresentKeepsAll(names: seq<string>, values: seq<Option<int>>, count: nat)
    requires count <= |names| <= |values| && forall i :: 0 <= i < count ==> values[i].Some?
    ensures |PrepareUpTo(names, values, count).bindings| == count
    ensures forall i :: 0 <= i < count ==> PrepareUpTo(names, values, count).bindings[i] == Binding(names[i], values[i].value)
  {
    if count > 0 {
      AllPresentKeepsAll(names, values, count - 1);
    }
  }

  /** With every value present, the older count is the newer result's length. */
  lemma LegacyAgreesWhenAllPresent(names: seq<string>, values: seq<Option<int>>, images: seq<nat>, base: nat, hook: Hook)
    requires |names| == |values| && forall i :: 0 <= i < |values| ==> values[i].Some?
    ensures LegacySet(names, values, images, base, hook).replaced == |SetNames(names, values, images, base, hook).replaced|
  {
    AllPresentKeepsAll(names, values, |names|);
    assert Prepare(names, values).bindings == LegacyBindings(names, values);
    LegacyCountsReplaced(images, LegacyBindings(names, values), base, hook);
  }

  // ---------------------------------------------------------------------------
  // The un-offset iterator

  /** The older iterator's element for record `i`: the name address is
      `strings_base + n_strx`, one byte before the newer one. */
  function LegacyEntryAt(imageNumber: nat, t: SymbolTable, i: nat): Entry
    requires i < |t.symbols|
  {
    var n := t.symbols[i];
    Entry(imageNumber, t.stringsBase + n.nStrx,
          if n.nSect == NO_SECT then None else Pointer(t.addressBase + n.nValue), i, n)
  }

  /** The older iterator yields every record, in table order. */
  function LegacyEntries(imageNumber: nat, t: SymbolTable): (es: seq<Entry>)
    ensures |es| == |t.symbols|
  {
    seq(|t.symbols|, i requires 0 <= i < |t.symbols| => LegacyEntryAt(imageNumber, t, i))
  }

  /** The older iterator is the newer unfiltered view with every name one
      byte earlier. */
  lemma LegacyIsUnfilteredShifted(imageNumber: nat, t: SymbolTable)
    ensures |LegacyEntries(imageNumber, t)| == |Entries(imageNumber, 0, t)|
    ensures forall k :: 0 <= k < |t.symbols| ==>
      LegacyEntries(imageNumber, t)[k] == Entries(imageNumber, 0, t)[k].(name := Entries(imageNumber, 0, t)[k].name - 1)
  {
    UnfilteredYieldsEveryRecord(imageNumber, t);
  }

  // ---------------------------------------------------------------------------
  // The older reverse lookup

  /** The older `self[ptr]`: only the loader's `dladdr`, and the first image
      whose path is the identical pointer or an equal string. */
  function LegacyLookup(address: int, numbers: seq<nat>, loader: Loader, dladdr: int -> Option<DlInfo>): (r: Option<(int, ImageSymbols)>)
    ensures dladdr(address).None? ==> r.None?
    ensures dladdr(address).Some? ==>
      var info := dladdr(address).value;
      && (r.None? <==> forall k :: 0 <= k < |numbers| ==> !SamePointer(info, loader, numbers[k]) && !SamePath(info, loader, numbers[k]))
      && (r.Some? ==> r.value.0 == info.sname)
      && (r.Some? ==> exists k :: (
            && 0 <= k < |numbers|
            && r.value.1 == Single(numbers[k], DefaultMask)
            && (SamePointer(info, loader, numbers[k]) || SamePath(info, loader, numbers[k]))
            && forall j :: 0 <= j < k ==> !SamePointer(info, loader, numbers[j]) && !SamePath(info, loader, numbers[j])))
  {
    match dladdr(address)
    case None => None
    case Some(info) =>
      match FirstIndex(numbers, n => SamePointer(info, loader, n) || SamePath(info, loader, n))
      case None => None
      case Some(k) => Some((info.sname, Single(numbers[k], DefaultMask)))
  }

  /** Where an earlier image only has an equal path and a later one has the
      identical pointer, the older lookup picks the earlier image and the newer
      one the later. */
  lemma LookupPreferenceDiffers(info: DlInfo, a: nat, b: nat, loader: Loader, dladdr: int -> Option<DlInfo>, address: int)
    requires dladdr(address) == Some(info)
    requires !SamePointer(info, loader, a) && SamePath(info, loader, a) && SamePointer(info, loader, b)
    ensures LegacyLookup(address, [a, b], loader, dladdr) == Some((info.sname, Single(a, DefaultMask)))
    ensures MatchingImage(info, [a, b], loader) == Some(1)
  {
    assert [a, b][1..] == [b];
    assert SamePointer(info, loader, [a, b][1]);
  }
}

=== FILE: macho.dfy ===
/** The Mach-O vocabulary the library reads: load commands as tagged records,
    64-bit symbol-table entries (`nlist_64`), and the constants of
    <mach-o/loader.h> and <mach-o/nlist.h> it compares against. */
module MachO {
  import opened Common

  const MH_MAGIC_64: u32 := 0xfeed_facf

  const LC_SEGMENT: u32 := 0x1
  const LC_SYMTAB: u32 := 0x2
  const LC_SEGMENT_64: u32 := 0x19
  const LC_DYLD_INFO: u32 := 0x22
  const LC_DYLD_INFO_ONLY: u32 := 0x8000_0022
  const LC_DYLD_EXPORTS_TRIE: u32 := 0x8000_0033

  const SEG_TEXT: string := "__TEXT"
  const SEG_LINKEDIT: string := "__LINKEDIT"

  /** `sizeof(struct mach_header_64)`: the first load command follows it. */
  const MachHeaderSize: nat := 32
  /** `sizeof(struct nlist_64)`: the stride of the symbol array. */
  const NlistSize: nat := 16

  /** Debugger (stab) entries: any of these type bits set. */
  const N_STAB: bv8 := 0xe0
  /** Private external symbols. */
  const N_PEXT: bv8 := 0x10
  /** `n_sect` of an entry not defined in any section. */
  const NO_SECT: u8 := 0

  /** The fields of `segment_command_64` the library reads. */
  datatype SegmentCommand = SegmentCommand(segname: string, vmaddr: u64, fileoff: u64, filesize: u64)

  /** One load command, tagged by the `cmd` values the library distinguishes:
      `Segment` is `LC_SEGMENT` or, with `wide`, `LC_SEGMENT_64`; `Symtab` is
      `LC_SYMTAB`; `DyldInfo` is `LC_DYLD_INFO` or, with `only`,
      `LC_DYLD_INFO_ONLY`; `ExportsTrie` is `LC_DYLD_EXPORTS_TRIE`. The library
      treats the two members of each pair alike, so `wide` and `only` are kept
      for the record only. `Other` stands for every command it steps over
      without reading; its `cmd` is none of these values (`Recognised`). */
  datatype LoadCommand =
    | Segment(wide: bool, cmdsize: u32, segment: SegmentCommand)
    | Symtab(cmdsize: u32, symoff: u32, nsyms: u32, stroff: u32, strsize: u32)
    | DyldInfo(only: bool, cmdsize: u32, exportOff: u32, exportSize: u32)
    | ExportsTrie(cmdsize: u32, dataoff: u32, datasize: u32)
    | Other(cmd: u32, cmdsize: u32)

  /** The `cmd` values the decoder's switch has a case for. */
  predicate Recognised(cmd: u32) {
    cmd in {LC_SEGMENT, LC_SEGMENT_64, LC_SYMTAB, LC_DYLD_INFO, LC_DYLD_INFO_ONLY, LC_DYLD_EXPORTS_TRIE}
  }

  /** One `nlist_64` record. */
  datatype Nlist = Nlist(nStrx: u32, nType: bv8, nSect: u8, nDesc: u16, nValue: u64)
}

=== FILE: queries.dfy ===
/** The linear scans over an image's entries: by name prefix, by exact name,
    Swift symbols by type suffix, and by demangled name. A name is the
    NUL-terminated string at the entry's name address, read through `cstr`;
    the demangler is a partial function on names. */
module Queries {
  import opened Common
  import opened Symbols

  /** `entries(withPrefix:)`: the entries whose name starts with the prefix. */
  function WithPrefix(es: seq<Entry>, prefix: string, cstr: int -> string): seq<Entry> {
    Filter(es, (e: Entry) => IsPrefix(prefix, cstr(e.name)))
  }

  /** The prefix scan keeps the order of the entries, keeps exactly the
      entries with the prefix, and with the empty prefix keeps everything. */
  lemma WithPrefixSpec(es: seq<Entry>, prefix: string, cstr: int -> string)
    ensures IsSubsequence(WithPrefix(es, prefix, cstr), es)
    ensures forall e :: e in WithPrefix(es, prefix, cstr) <==> e in es && IsPrefix(prefix, cstr(e.name))
    ensures prefix == "" ==> WithPrefix(es, prefix, cstr) == es
  {
  }

  /** `entry(named:)`: the first entry with exactly this name. */
  function Named(es: seq<Entry>, name: string, cstr: int -> string): (r: Option<Entry>)
    ensures r.None? <==> forall e :: e in es ==> cstr(e.name) != name
    ensures r.Some? ==> cstr(r.value.name) == name
    ensures r.Some? ==> exists k :: 0 <= k < |es| && es[k] == r.value && forall j :: 0 <= j < k ==> cstr(es[j].name) != name
  {
    First(es, (e: Entry) => cstr(e.name) == name)
  }

  /** An exact lookup inside the prefix scan for the whole name finds the
      same first match as over all entries; in particular, a name found by
      exact lookup is among that scan's results. */
  lemma NamedThroughPrefixScan(es: seq<Entry>, name: string, cstr: int -> string)
    ensures Named(WithPrefix(es, name, cstr), name, cstr) == Named(es, name, cstr)
    ensures Named(es, name, cstr).Some? ==> Named(es, name, cstr).value in WithPrefix(es, name, cstr)
  {
    var f := (e: Entry) => IsPrefix(name, cstr(e.name));
    var g := (e: Entry) => cstr(e.name) == name;
    forall e | g(e)
      ensures f(e)
    {
      assert cstr(e.name)[..|name|] == name;
    }
    FirstOfFilter(es, f, g);
    assert IsPrefix(name, name);
  }

  /** The `swiftSymbols(withSuffixes:)` filter on one entry: a defined symbol
      whose name starts with `$s` and, when suffixes are given, ends with one
      of them. */
  predicate IsSwiftSymbol(e: Entry, suffixes: Option<seq<string>>, cstr: int -> string) {
    && e.value.Some?
    && IsPrefix("$s", cstr(e.name))
    && match suffixes
       case None => true
       case Some(ss) => exists k :: 0 <= k < |ss| && IsSuffix(ss[k], cstr(e.name))
  }

  function SwiftSymbols(es: seq<Entry>, suffixes: Option<seq<string>>, cstr: int -> string): seq<Entry> {
    Filter(es, (e: Entry) => IsSwiftSymbol(e, suffixes, cstr))
  }

  /** The Swift-symbol scan keeps the order of the entries and keeps exactly
      the defined `$s` entries (with a listed suffix); a suffix list only ever
      narrows the unrestricted scan. */
  lemma SwiftSymbolsSpec(es: seq<Entry>, suffixes: Option<seq<string>>, cstr: int -> string)
    ensures IsSubsequence(SwiftSymbols(es, suffixes, cstr), es)
    ensures forall e :: e in SwiftSymbols(es, suffixes, cstr) <==>
      && e in es && e.value.Some? && IsPrefix("$s", cstr(e.name))
      && (suffixes.Some? ==> exists k :: 0 <= k < |suffixes.value| && IsSuffix(suffixes.value[k], cstr(e.name)))
    ensures forall e :: e in SwiftSymbols(es, suffixes, cstr) ==> e in SwiftSymbols(es, None, cstr)
  {
  }

  /** The class-metadata symbol of a test class is kept by the `CN` suffix
      filter once it is defined. */
  lemma ClassMetadataKept(es: seq<Entry>, e: Entry, cstr: int -> string)
    requires e in es && e.value.Some? && cstr(e.name) == "$s10DLKitTestsAACN"
    ensures e in SwiftSymbols(es, Some(["CN"]), cstr)
  {
    assert IsSuffix(["CN"][0], cstr(e.name));
  }

  /** `mangle(swift:)`: the first entry whose name demangles to the given text. */
  function Mangle(es: seq<Entry>, swift: string, cstr: int -> string, demangle: string -> Option<string>): (r: Option<Entry>)
    ensures r.None? <==> forall e :: e in es ==> demangle(cstr(e.name)) != Some(swift)
    ensures r.Some? ==> demangle(cstr(r.value.name)) == Some(swift)
    ensures r.Some? ==> exists k :: 0 <= k < |es| && es[k] == r.value && forall j :: 0 <= j < k ==> demangle(cstr(es[j].name)) != Some(swift)
  {
    First(es, (e: Entry) => demangle(cstr(e.name)) == Some(swift))
  }
}

=== FILE: symbols.dfy ===
/** The symbol-table iterator of one image: a cursor over its `nlist_64`
    records that skips filtered entries (`skipFiltered`) and yields each
    remaining one as an `Entry` (`SymbolIterator.next`). */
module Symbols {
  import opened Common
  import opened MachO
  import Decoder

  /** What the iterator reads of one image: the `symbol_count` records at
      `symbols`, and the string and address bases. */
  datatype SymbolTable = SymbolTable(symbols: seq<Nlist>, stringsBase: int, addressBase: int)

  /** The table a decoded iterator state describes, with `nlistAt` giving the
      record stored at each address. */
  function TableOf(state: Decoder.IteratorState, nlistAt: int -> Nlist): (t: SymbolTable)
    ensures |t.symbols| == state.symbolCount
    ensures forall i :: 0 <= i < |t.symbols| ==> t.symbols[i] == nlistAt(state.symbols + NlistSize * i)
  {
    SymbolTable(seq(state.symbolCount, i => nlistAt(state.symbols + NlistSize * i)), state.stringsBase, state.addressBase)
  }

  /** One yielded symbol: owning image, address of its name, its address when
      defined, and which record of the table it came from. */
  datatype Entry = Entry(imageNumber: nat, name: int, value: Option<int>, index: nat, nlist: Nlist)

  /** `Entry.isDebugging`: a stab entry. */
  predicate IsDebugging(e: Entry) {
    e.nlist.nType & N_STAB != 0
  }

  /** The iterator: owner's image number and type mask, the cursor
      `next_symbol`, and the table (whose length is `symbol_count`). */
  datatype SymbolIterator = SymbolIterator(imageNumber: nat, typeMask: bv8, next: nat, table: SymbolTable)

  /** The filter `skipFiltered` applies: with a non-zero mask, an entry is
      skipped if it has a masked type bit or no section. */
  predicate Excluded(mask: bv8, n: Nlist) {
    mask != 0 && (n.nType & mask != 0 || n.nSect == NO_SECT)
  }

  /** `UnsafeMutableRawPointer(bitPattern:)`: no pointer for the bit pattern 0. */
  function Pointer(bits: int): Option<int> {
    if bits == 0 then None else Some(bits)
  }

  /** The entry yielded for record `i`: the name starts one byte past
      `strings_base + n_strx`, skipping the leading `_` of the C-level symbol
      name. */
  function EntryAt(imageNumber: nat, t: SymbolTable, i: nat): Entry
    requires i < |t.symbols|
  {
    var n := t.symbols[i];
    Entry(imageNumber, t.stringsBase + 1 + n.nStrx,
          if n.nSect == NO_SECT then None else Pointer(t.addressBase + n.nValue), i, n)
  }

  /** `e` is what the iterator of this image and mask yields for its record. */
  predicate Yields(imageNumber: nat, mask: bv8, t: SymbolTable, e: Entry) {
    && e.index < |t.symbols|
    && e.nlist == t.symbols[e.index]
    && !Excluded(mask, e.nlist)
    && e.imageNumber == imageNumber
    && e.name == t.stringsBase + 1 + e.nlist.nStrx
    && (e.value.None? <==> e.nlist.nSect == NO_SECT || t.addressBase + e.nlist.nValue == 0)
    && (e.value.Some? ==> e.value.value == t.addressBase + e.nlist.nValue)
  }

  /** `skipFiltered`: advance the cursor over excluded entries. */
  function SkipFiltered(it: SymbolIterator): (r: SymbolIterator)
    ensures r == it.(next := r.next)
    ensures it.next <= r.next
    ensures it.typeMask == 0 ==> r.next == it.next
    ensures it.next <= |it.table.symbols| ==> r.next <= |it.table.symbols|
    ensures r.next >= |it.table.symbols| || !Excluded(it.typeMask, it.table.symbols[r.next])
    ensures forall i :: it.next <= i < r.next ==> i < |it.table.symbols| && Excluded(it.typeMask, it.table.symbols[i])
    decreases |it.table.symbols| - it.next
  {
    if it.next < |it.table.symbols| && Excluded(it.typeMask, it.table.symbols[it.next])
    then SkipFiltered(it.(next := it.next + 1))
    else it
  }

  /** The result of one `next()` call and the iterator after it. */
  datatype Step = Step(entry: Option<Entry>, after: SymbolIterator)

  /** `SymbolIterator.next`: skip filtered entries, then yield the entry at the
      cursor and advance past it, or report the end. */
  function Next(it: SymbolIterator): (s: Step)
    ensures s.after == it.(next := s.after.next)
    ensures s.entry.None? <==> SkipFiltered(it).next >= |it.table.symbols|
    ensures s.entry.None? ==>
      forall i :: it.next <= i < |it.table.symbols| ==> Excluded(it.typeMask, it.table.symbols[i])
    ensures s.entry.None? ==> s.after == SkipFiltered(it)
    ensures s.entry.Some? ==>
      && it.next <= s.entry.value.index
      && s.after.next == s.entry.value.index + 1
      && Yields(it.imageNumber, it.typeMask, it.table, s.entry.value)
      && forall i :: it.next <= i < s.entry.value.index ==> Excluded(it.typeMask, it.table.symbols[i])
  {
    var skipped := SkipFiltered(it);
    if skipped.next >= |it.table.symbols| then Step(None, skipped)
    else Step(Some(EntryAt(it.imageNumber, it.table, skipped.next)), skipped.(next := skipped.next + 1))
  }

  /** Every entry the iterator yields from its current position on; the
      records they come from are in table order, with no repeats. */
  function Drain(it: SymbolIterator): (es: seq<Entry>)
    ensures forall k :: 0 <= k < |es| ==> it.next <= es[k].index < |it.table.symbols|
    ensures forall k, l :: 0 <= k < l < |es| ==> es[k].index < es[l].index
    decreases |it.table.symbols| - it.next
  {
    var skipped := SkipFiltered(it);
    if skipped.next >= |it.table.symbols| then []
    else [EntryAt(it.imageNumber, it.table, skipped.next)] + Drain(skipped.(next := skipped.next + 1))
  }

  /** Every drained entry is the one its record yields, and its record passes the filter. */
  lemma {:induction false} DrainSound(it: SymbolIterator)
    ensures forall k :: 0 <= k < |Drain(it)| ==>
      && !Excluded(it.typeMask, it.table.symbols[Drain(it)[k].index])
      && Drain(it)[k] == EntryAt(it.imageNumber, it.table, Drain(it)[k].index)
    decreases |it.table.symbols| - it.next
  {
    var skipped := SkipFiltered(it);
    if skipped.next < |it.table.symbols| {
      var after := skipped.(next := skipped.next + 1);
      DrainSound(after);
      assert Drain(it) == [EntryAt(it.imageNumber, it.table, skipped.next)] + Drain(after);
    }
  }

  /** Every record from the cursor on that passes the filter is drained. */
  lemma {:induction false} DrainComplete(it: SymbolIterator)
    ensures forall i :: it.next <= i < |it.table.symbols| && !Excluded(it.typeMask, it.table.symbols[i]) ==>
      exists k :: 0 <= k < |Drain(it)| && Drain(it)[k].index == i
    decreases |it.table.symbols| - it.next
  {
    var skipped := SkipFiltered(it);
    if skipped.next < |it.table.symbols| {
      var after := skipped.(next := skipped.next + 1);
      DrainComplete(after);
      assert skipped.table == it.table;
      var es := Drain(it);
      var rest := Drain(after);
      assert es == [EntryAt(it.imageNumber, it.table, skipped.next)] + rest;
      forall i | it.next <= i < |it.table.symbols| && !Excluded(it.typeMask, it.table.symbols[i])
        ensures exists k :: 0 <= k < |es| && es[k].index == i
      {
        assert i >= skipped.next;
        if i == skipped.next {
          assert es[0].index == i;
        } else {
          var k :| 0 <= k < |rest| && rest[k].index == i;
          assert es[k + 1].index == i;
        }
      }
      assert es == Drain(it);
    }
  }

  /** Draining is calling `next()` until it reports the end. */
  lemma DrainRepeatsNext(it: SymbolIterator)
    ensures Drain(it) == match Next(it).entry
                         case None => []
                         case Some(e) => [e] + Drain(Next(it).after)
  {
  }

  /** The entries of one image, iterated from the start of its table. */
  function Entries(imageNumber: nat, typeMask: bv8, t: SymbolTable): seq<Entry> {
    Drain(SymbolIterator(imageNumber, typeMask, 0, t))
  }

  /** An image's entries are exactly what `next()` yields for the records that
      pass its filter: each entry is one such record's, and each such record
      has its entry. */
  lemma EntriesYield(imageNumber: nat, typeMask: bv8, t: SymbolTable)
    ensures forall e :: e in Entries(imageNumber, typeMask, t) ==> Yields(imageNumber, typeMask, t, e)
    ensures forall i :: 0 <= i < |t.symbols| && !Excluded(typeMask, t.symbols[i]) ==>
      EntryAt(imageNumber, t, i) in Entries(imageNumber, typeMask, t)
  {
    var it := SymbolIterator(imageNumber, typeMask, 0, t);
    DrainSound(it);
    DrainComplete(it);
    forall i | 0 <= i < |t.symbols| && !Excluded(typeMask, t.symbols[i])
      ensures EntryAt(imageNumber, t, i) in Entries(imageNumber, typeMask, t)
    {
      var k :| 0 <= k < |Drain(it)| && Drain(it)[k].index == i;
    }
  }

  /** With mask 0 nothing is skipped: the iterator yields every record, in table order. */
  lemma {:induction false} UnfilteredDrainsAll(it: SymbolIterator)
    requires it.typeMask == 0 && it.next <= |it.table.symbols|
    ensures |Drain(it)| == |it.table.symbols| - it.next
    ensures forall k :: 0 <= k < |Drain(it)| ==> Drain(it)[k].index == it.next + k
    decreases |it.table.symbols| - it.next
  {
    var skipped := SkipFiltered(it);
    if skipped.next < |it.table.symbols| {
      UnfilteredDrainsAll(skipped.(next := skipped.next + 1));
    }
  }

  /** The unfiltered view of a table has one entry per record, record `k` at
      position `k`, undefined symbols included. */
  lemma UnfilteredYieldsEveryRecord(imageNumber: nat, t: SymbolTable)
    ensures |Entries(imageNumber, 0, t)| == |t.symbols|
    ensures forall k :: 0 <= k < |t.symbols| ==> Entries(imageNumber, 0, t)[k] == EntryAt(imageNumber, t, k)
  {
    UnfilteredDrainsAll(SymbolIterator(imageNumber, 0, 0, t));
    DrainSound(SymbolIterator(imageNumber, 0, 0, t));
  }

  /** The unfiltered iterator over the table a state describes reads record
      `k` at `symbols + 16 * k` and its name from `strings_base`. */
  lemma {:induction false} StateEntries(state: Decoder.IteratorState, nlistAt: int -> Nlist, imageNumber: nat)
    ensures var es := Entries(imageNumber, 0, TableOf(state, nlistAt));
      && |es| == state.symbolCount
      && forall k :: 0 <= k < |es| ==>
        && es[k].index == k
        && es[k].nlist == nlistAt(state.symbols + NlistSize * k)
        && es[k].name == state.stringsBase + 1 + es[k].nlist.nStrx
        && (es[k].value.None? <==> es[k].nlist.nSect == NO_SECT || state.addressBase + es[k].nlist.nValue == 0)
  {
    UnfilteredYieldsEveryRecord(imageNumber, TableOf(state, nlistAt));
  }

  /** From the decoder to the iterator: when the first pass over the commands
      succeeds and command `j` is the last `LC_SYMTAB`, the unfiltered iterator
      yields one entry per record of that command, entry `k` reading the record
      at `header + symoff + file_slide + 16 * k` and naming the string at
      `header + stroff + file_slide + 1 + n_strx`. */
  lemma {:induction false} ScannedEntries(cmds: seq<LoadCommand>, isFile: bool, header: int, capacity: nat,
                                          s: Decoder.Scan, j: nat, nlistAt: int -> Nlist, imageNumber: nat)
    requires Decoder.ScanCommands(cmds, isFile, header, capacity) == Ok(s)
    requires Decoder.LastSymtab(cmds) == Some(j)
    ensures var es := Entries(imageNumber, 0, TableOf(s.state, nlistAt));
      && |es| == cmds[j].nsyms
      && s.state.symbols == header + cmds[j].symoff + s.state.fileSlide
      && s.state.stringsBase == header + cmds[j].stroff + s.state.fileSlide
      && forall k :: 0 <= k < |es| ==>
        && es[k].index == k
        && es[k].nlist == nlistAt(s.state.symbols + NlistSize * k)
        && es[k].name == s.state.stringsBase + 1 + es[k].nlist.nStrx
        && (es[k].value.None? <==> es[k].nlist.nSect == NO_SECT || s.state.addressBase + es[k].nlist.nValue == 0)
  {
    Decoder.ScanSymtab(cmds, isFile, header, capacity);
    StateEntries(s.state, nlistAt, imageNumber);
  }

  /** Without an `LC_SYMTAB` the iterator yields nothing, under any mask. */
  lemma {:induction false} ScannedWithoutSymtab(cmds: seq<LoadCommand>, isFile: bool, header: int, capacity: nat,
                                                s: Decoder.Scan, nlistAt: int -> Nlist, imageNumber: nat, mask: bv8)
    requires Decoder.ScanCommands(cmds, isFile, header, capacity) == Ok(s)
    requires Decoder.LastSymtab(cmds).None?
    ensures Entries(imageNumber, mask, TableOf(s.state, nlistAt)) == []
  {
    Decoder.ScanSymtab(cmds, isFile, header, capacity);
    EntriesYield(imageNumber, mask, TableOf(s.state, nlistAt));
  }

  /** The table of the whole decoder's result is the first pass's: the second
      pass only writes the trie fields. */
  lemma DecodedTable(image: Decoder.MachImage, header: int, isFile: bool, capacity: nat, nlistAt: int -> Nlist)
    requires Decoder.InitSymbolIterator(image, header, isFile, capacity).Ok?
    ensures TableOf(Decoder.InitSymbolIterator(image, header, isFile, capacity).value, nlistAt)
         == TableOf(Decoder.ScanCommands(Decoder.Commands(image).value, isFile, header, capacity).value.state, nlistAt)
  {
  }

  /** With a non-zero mask no yielded entry is undefined, and a mask that holds
      the stab bits (the default, and the `globals` mask) yields no debugging entry. */
  lemma FilteredEntriesAreDefined(imageNumber: nat, typeMask: bv8, t: SymbolTable)
    requires typeMask != 0
    ensures forall e :: e in Entries(imageNumber, typeMask, t) ==> e.nlist.nSect != NO_SECT
    ensures typeMask & N_STAB == N_STAB ==>
      forall e :: e in Entries(imageNumber, typeMask, t) ==> !IsDebugging(e)
  {
    EntriesYield(imageNumber, typeMask, t);
  }

  /** Two yielded entries of one image that come from the same record are equal. */
  lemma YieldsSameRecord(imageNumber: nat, m1: bv8, m2: bv8, t: SymbolTable, a: Entry, b: Entry)
    requires Yields(imageNumber, m1, t, a) && Yields(imageNumber, m2, t, b) && a.index == b.index
    ensures a == b
  {
    if a.value.Some? {
      assert b.value.Some?;
    }
  }

  lemma NarrowMaskPasses(x: bv8, narrow: bv8, wide: bv8)
    requires narrow != 0 && narrow & wide == narrow && x & wide == 0
    ensures wide != 0 && x & narrow == 0
  {
  }

  /** Masking more bits only drops entries: every entry of the wider mask's
      view (for instance `globals`) is also an entry of the narrower one's (the
      default view). */
  lemma MaskRefinement(imageNumber: nat, narrow: bv8, wide: bv8, t: SymbolTable)
    requires narrow != 0 && narrow & wide == narrow
    ensures forall e :: e in Entries(imageNumber, wide, t) ==> e in Entries(imageNumber, narrow, t)
  {
    var es := Entries(imageNumber, narrow, t);
    var ws := Entries(imageNumber, wide, t);
    forall j | 0 <= j < |ws|
      ensures ws[j] in es
    {
      var e := ws[j];
      assert e in ws;
      EntriesYield(imageNumber, wide, t);
      EntriesYield(imageNumber, narrow, t);
      NarrowMaskPasses(e.nlist.nType, narrow, wide);
      assert !Excluded(narrow, t.symbols[e.index]);
      var k :| 0 <= k < |es| && es[k].index == e.index;
      YieldsSameRecord(imageNumber, narrow, wide, t, es[k], e);
    }
  }
}

=== FILE: views.dfy ===
/** The entries an `ImageSymbols` value iterates: a single image iterates its
    own table under its own mask; a multi-image (a pseudo image or a
    re-filtered view) iterates the images of its `imageList` one after
    another. The `unfiltered` and `globals` views re-filter an owner. */
module Views {
  import opened Common
  import opened MachO
  import opened Symbols
  import opened Catalogue

  /** The decoded symbol table of each loaded image, by image number, and of
      each file image, by the path its bytes were read from. */
  datatype Tables = Tables(loaded: nat -> SymbolTable, file: string -> SymbolTable)

  function TableFor(image: ImageSymbols, tables: Tables): SymbolTable {
    if image.File? then tables.file(image.path) else tables.loaded(ImageNumber(image))
  }

  /** `makeIterator()` of one image: its own symbol iterator. */
  function ImageEntries(image: ImageSymbols, tables: Tables): seq<Entry> {
    Entries(ImageNumber(image), TypeMask(image), TableFor(image, tables))
  }

  /** `MultiImage.entries`: `imageList.flatMap { $0 }`. */
  function MultiEntries(list: seq<ImageSymbols>, tables: Tables): seq<Entry>
    decreases |list|
  {
    if |list| == 0 then []
    else MultiEntries(list[..|list| - 1], tables) + ImageEntries(list[|list| - 1], tables)
  }

  lemma {:induction false} MultiEntriesPrefix(list: seq<ImageSymbols>, tables: Tables, m: nat)
    requires m <= |list|
    ensures IsPrefix(MultiEntries(list[..m], tables), MultiEntries(list, tables))
    decreases |list|
  {
    if m < |list| {
      var init := list[..|list| - 1];
      MultiEntriesPrefix(init, tables, m);
      assert init[..m] == list[..m];
    } else {
      assert list[..m] == list;
    }
  }

  /** The concatenation keeps list order: entry `j` of element `k` sits right
      after all entries of the elements before `k`. */
  lemma MultiEntriesLayout(list: seq<ImageSymbols>, tables: Tables, k: nat, j: nat)
    requires k < |list| && j < |ImageEntries(list[k], tables)|
    ensures |MultiEntries(list[..k], tables)| + j < |MultiEntries(list, tables)|
    ensures MultiEntries(list, tables)[|MultiEntries(list[..k], tables)| + j] == ImageEntries(list[k], tables)[j]
  {
    var p := list[..k + 1];
    MultiEntriesPrefix(list, tables, k + 1);
    assert p[..|p| - 1] == list[..k] && p[|p| - 1] == list[k];
    var before := MultiEntries(list[..k], tables);
    assert MultiEntries(p, tables) == before + ImageEntries(list[k], tables);
    assert MultiEntries(p, tables)[|before| + j] == ImageEntries(list[k], tables)[j];
  }

  /** An entry is in the concatenation iff it is an entry of some listed image. */
  lemma {:induction false} MultiEntriesMembers(list: seq<ImageSymbols>, tables: Tables)
    ensures forall e :: e in MultiEntries(list, tables) <==>
      exists k :: 0 <= k < |list| && e in ImageEntries(list[k], tables)
    decreases |list|
  {
    if |list| > 0 {
      var init := list[..|list| - 1];
      MultiEntriesMembers(init, tables);
      assert forall k :: 0 <= k < |init| ==> init[k] == list[k];
    }
  }

  /** The views that iterate their `imageList`: the pseudo images and the
      re-filtered views. */
  predicate IsMultiImage(image: ImageSymbols) {
    image.AllImages? || image.AppImages? || image.MainImage? || image.Refiltered?
  }

  /** The entries a view iterates, and the file registry after listing its images. */
  datatype Viewed = Viewed(entries: seq<Entry>, registry: Registry)

  function ViewEntries(image: ImageSymbols, loader: Loader, reg: Registry, read: string -> Option<seq<u8>>, tables: Tables): Viewed {
    if IsMultiImage(image) then
      var listed := ImageList(image, loader, reg, read);
      Viewed(MultiEntries(listed.images, tables), listed.registry)
    else Viewed(ImageEntries(image, tables), reg)
  }

  /** `unfiltered`: every entry of the owner's images. */
  function Unfiltered(owner: ImageSymbols): ImageSymbols {
    Refiltered(owner, 0)
  }

  /** `globals`: no debugging and no private external entries. */
  function Globals(owner: ImageSymbols): ImageSymbols {
    Refiltered(owner, N_STAB | N_PEXT)
  }

  /** Both views keep the owner's number and report exactly its image
      numbers; only the mask differs. */
  lemma ReMaskedViews(owner: ImageSymbols, loader: Loader)
    ensures ImageNumbers(Unfiltered(owner), loader) == ImageNumbers(owner, loader)
    ensures ImageNumbers(Globals(owner), loader) == ImageNumbers(owner, loader)
    ensures SameImage(Unfiltered(owner), owner) && SameImage(Globals(owner), owner)
    ensures TypeMask(Unfiltered(owner)) == 0
    ensures TypeMask(Globals(owner)) == 0xf0
    ensures IsMultiImage(Unfiltered(owner)) && IsMultiImage(Globals(owner))
  {
  }

  /** A re-filtered view of a loaded image that is not a registered file
      lists that one image under the view's mask and leaves the registry alone. */
  lemma RefilteredLoadedImage(n: nat, m: bv8, mask: bv8, loader: Loader, reg: Registry, read: string -> Option<seq<u8>>, tables: Tables)
    requires n !in reg.filePaths
    ensures ViewEntries(Refiltered(Single(n, m), mask), loader, reg, read, tables) == Viewed(Entries(n, mask, tables.loaded(n)), reg)
  {
    var image := Refiltered(Single(n, m), mask);
    assert ImageNumbers(image, loader) == [n];
    assert TypeMask(image) == mask;
    var listed := ImageList(image, loader, reg, read);
    assert listed == ListFor([n], mask, reg, read);
    assert ListElement(n, mask, reg, read) == Loaded(Some(Single(n, mask)), reg);
    assert [n][1..] == [];
    assert ListFor([], mask, reg, read) == Listed([], reg);
    assert listed == Listed([Single(n, mask)], reg);
    assert listed.images[..0] == [];
    assert MultiEntries(listed.images, tables) == ImageEntries(Single(n, mask), tables);
  }

  /** The unfiltered view of a loaded image that is not a registered file
      yields every record of its table in order, undefined and debugging
      entries included. */
  lemma UnfilteredLoadedImage(n: nat, mask: bv8, loader: Loader, reg: Registry, read: string -> Option<seq<u8>>, tables: Tables)
    requires n !in reg.filePaths
    ensures var v := ViewEntries(Unfiltered(Single(n, mask)), loader, reg, read, tables);
      && v.registry == reg
      && |v.entries| == |tables.loaded(n).symbols|
      && forall k :: 0 <= k < |v.entries| ==> v.entries[k] == EntryAt(n, tables.loaded(n), k)
  {
    RefilteredLoadedImage(n, mask, 0, loader, reg, read, tables);
    UnfilteredYieldsEveryRecord(n, tables.loaded(n));
  }

  /** The globals view of a loaded image yields only entries its default view
      yields too. */
  lemma GlobalsWithinDefault(n: nat, loader: Loader, reg: Registry, read: string -> Option<seq<u8>>, tables: Tables)
    requires n !in reg.filePaths
    ensures var v := ViewEntries(Globals(Single(n, DefaultMask)), loader, reg, read, tables);
      forall e :: e in v.entries ==> e in ViewEntries(Single(n, DefaultMask), loader, reg, read, tables).entries
  {
    RefilteredLoadedImage(n, DefaultMask, 0xf0, loader, reg, read, tables);
    assert N_STAB | N_PEXT == 0xf0;
    MaskRefinement(n, DefaultMask, 0xf0, tables.loaded(n));
  }

  /** A listing of plain images, one per number, all under one mask. */
  predicate PlainListing(list: seq<ImageSymbols>, ns: seq<nat>, mask: bv8) {
    |list| == |ns| && forall k :: 0 <= k < |ns| ==> list[k] == Single(ns[k], mask)
  }

  /** The concatenated entries of plain images are exactly what their
      iterators yield: each entry comes from a listed image's table and passes
      the mask, and every passing record of every listed image is yielded. */
  lemma PlainListingEntries(list: seq<ImageSymbols>, ns: seq<nat>, mask: bv8, tables: Tables)
    requires PlainListing(list, ns, mask)
    ensures forall e :: e in MultiEntries(list, tables) ==>
      e.imageNumber in ns && Yields(e.imageNumber, mask, tables.loaded(e.imageNumber), e)
    ensures forall k, i ::
      (0 <= k < |ns| && 0 <= i < |tables.loaded(ns[k]).symbols| && !Excluded(mask, tables.loaded(ns[k]).symbols[i])) ==>
      EntryAt(ns[k], tables.loaded(ns[k]), i) in MultiEntries(list, tables)
  {
    MultiEntriesMembers(list, tables);
    forall e | e in MultiEntries(list, tables)
      ensures e.imageNumber in ns && Yields(e.imageNumber, mask, tables.loaded(e.imageNumber), e)
    {
      var k :| 0 <= k < |list| && e in ImageEntries(list[k], tables);
      EntriesYield(ns[k], mask, tables.loaded(ns[k]));
    }
    forall k, i | 0 <= k < |ns| && 0 <= i < |tables.loaded(ns[k]).symbols| &&
        !Excluded(mask, tables.loaded(ns[k]).symbols[i])
      ensures EntryAt(ns[k], tables.loaded(ns[k]), i) in MultiEntries(list, tables)
    {
      EntriesYield(ns[k], mask, tables.loaded(ns[k]));
      assert EntryAt(ns[k], tables.loaded(ns[k]), i) in ImageEntries(list[k], tables);
    }
  }

  /** Under the default mask the all-images view iterates every loaded image
      in load order: each entry is one a loaded image's iterator yields, and
      every record that passes the default filter in any loaded image is
      yielded. The file registry is left alone. */
  lemma AllImagesEntries(loader: Loader, reg: Registry, read: string -> Option<seq<u8>>, tables: Tables)
    requires RegistryValid(reg)
    ensures var v := ViewEntries(AllImages, loader, reg, read, tables);
      && v.registry == reg
      && (forall e :: e in v.entries ==>
            e.imageNumber < loader.count && Yields(e.imageNumber, DefaultMask, tables.loaded(e.imageNumber), e))
      && (forall n: nat, i ::
            (n < loader.count && 0 <= i < |tables.loaded(n).symbols| && !Excluded(DefaultMask, tables.loaded(n).symbols[i])) ==>
            EntryAt(n, tables.loaded(n), i) in v.entries)
  {
    var ns := ImageNumbers(AllImages, loader);
    var listed := ImageList(AllImages, loader, reg, read);
    ImageListSpec(AllImages, loader, reg, read);
    assert PlainListing(listed.images, ns, DefaultMask);
    PlainListingEntries(listed.images, ns, DefaultMask, tables);
    assert forall x :: x in ns ==> x < loader.count;
    forall n: nat, i | n < loader.count && 0 <= i < |tables.loaded(n).symbols| && !Excluded(DefaultMask, tables.loaded(n).symbols[i])
      ensures EntryAt(n, tables.loaded(n), i) in MultiEntries(listed.images, tables)
    {
      assert ns[n] == n;
    }
  }
}
